=== FILE: README.md ===
# ShellsortResearch in Dafny

ShellsortResearch is a C++ program that compares Shell sort gap sequences by counting operations. It also searches for better sequences with a small genetic algorithm. This project models the program's core in Dafny and proves properties of that model:

- **The instrumented `shellSort`** (`ShellSort`, `ShellSortMethods`). Its operation counter counts one per gap, one per element visited and one per shift.
- **Its uncounted twin in ShellsortResearch.cpp**, which takes `int` gaps.
- **The `GapsSequence` entity and its `operator==`**, and the Ciura seed generator (`Gaps`).
- **Breeding in the genetic search**: `crossParents` and `getNewPopulation` (`Genetic`).
- **The aggregation inside `compareShellSorts`** (`Benchmark`). This covers per-candidate sums, the win per trial, the averages, the final ordering, and the index arithmetic used to join the worker threads.
- **The results file** (`Split`, `Records`, `Decimal`). This covers `splitString`, the line written by `saveGapsToFile`, the parse in `getGapsFromFile`, and the shared file path. `std::to_string` and `std::stoul` are in `Decimal`.

## How the model is built

- **Shell sort.** Each C++ loop of the sort is a pure function in `ShellSort`:
  - `Sift` is the shifting loop.
  - `PassFrom` and `Pass` are the loop over `i`.
  - `Run` is the loop over the gaps.

  `Run` threads the array and the operation count as the code does, counting each shift as one operation; the shift count it also carries is part of that operation count, not a separate counter of the code. `ShellSortMethods` writes both sorts as loops on the array: one method per loop of the C++, each nested loop a call to the next. They are proved to compute what `Run` computes, so they inherit every lemma about `Run`.
- **Randomness, threads and time.** These stay outside the model:
  - `getRandomizedGaps` becomes the function parameter `draw`.
  - Each comparison trial is given as its data.
  - The clock is dropped.
- **The file system** is a map from path to content.
- **Types.** `unsigned long` values are `nat`. `std::stoul` uses the 64-bit range. `double` averages are exact `real`s.

Points where the code behaves in a way that is easy to miss, and how the model follows it:

- **Winner of a trial.** The code takes `results[0]` after an unstable `std::sort`, which can be any of the fastest candidates. The model therefore takes a `tie` input, and `Benchmark.AnyFastestCanWin` shows that every fastest candidate can be chosen.
- **Duplicate candidates.** Wins are credited by `GapsSequence` equality. Every entry equal to the winner scores, so duplicated candidates all collect the win.
- **Gap 0 (instrumented sort).** The comparison `arr[j - 0] > temp` reads the hole, which still holds `temp`. It is false, so the pass does nothing except count each element visited.
- **Negative gaps (research sort).** Its `int` gaps are compared with the unsigned `arr.size()`. A negative start index converts to a huge unsigned value, so a pass with a negative gap does nothing. `ShellSortMethods.NonNegative` and `IndexBelowSize` model this.

## Model

| member | source | states |
|---|---|---|
| `Gaps.SameIsEquality` | Shellsort.hpp:29-31 | Two gap sequences compare equal exactly when they are the same value, so the comparison is an equivalence |
| `Gaps.TakeBelow` | Shellsort.hpp:81-88 | The loop keeps a prefix of the table, every kept gap is below the bound, and the element it stopped at is not |
| `Gaps.CiuraGaps` | Shellsort.hpp:78-92 | Named "Ciura". Holds exactly the table values below the range, strictly decreasing. Empty iff the range is at most 1, otherwise ends in 1 |
| `ShellSort.Sift` | Shellsort.hpp:43-50 | The shifting loop keeps the array's length, and each shift costs exactly one operation |
| `ShellSort.PassFrom` | Shellsort.hpp:40-51 | The pass loop keeps the length and costs one operation per element visited from `i` on, plus one per shift |
| `ShellSort.Run` | Shellsort.hpp:34-54 | The sort keeps the length. Its count is the number of gaps plus, per gap g, max(0, n-g) visits, plus the shifts |
| `ShellSort.SiftPermutes` | Shellsort.hpp:45-50 | The shifting loop followed by the store of `temp` only rearranges the array |
| `ShellSort.SiftOrders` | Shellsort.hpp:45-50 | Inserting `temp` keeps the first `i+1` positions g-sorted and leaves the positions after `i` untouched |
| `ShellSort.RunPermutes` | Shellsort.hpp:34-54 | The sorted array is a permutation of the input, of the same length |
| `ShellSort.PassGSorts` | Shellsort.hpp:40-51 | After the pass for gap g every element is at least the one g places before it |
| `ShellSort.RunLastGapSorts` | Shellsort.hpp:37-52 | After all passes the array is g-sorted for the last gap |
| `ShellSort.OneSortedIsSorted` | Shellsort.hpp:34-54 | 1-sorted means sorted, which is why a final gap of 1 sorts |
| `ShellSort.RunSorts` | Shellsort.hpp:34-54 | With a last gap of 1 the output is sorted ascending and a permutation of the input, whatever the earlier gaps |
| `ShellSort.LargeGapIsNoOp` | Shellsort.hpp:37-41 | A gap of at least the array length costs one operation and moves nothing |
| `ShellSort.SortedRunStill` | Shellsort.hpp:34-54 | Sorted input comes back unchanged with no shift, at the minimum count |
| `ShellSort.LargeGapsNoOp` | Shellsort.hpp:37-41 | With every gap at least the array length, the array is untouched and the count is the number of gaps |
| `ShellSortMethods.SiftLoop` | Shellsort.hpp:43-50 | The innermost loop on the array leaves the model's array and counts the model's shifts, and only rearranges the array |
| `ShellSortMethods.PassLoop` | Shellsort.hpp:40-51 | The loop over `i` leaves the model's pass result, at one operation per visited element plus the shifts |
| `ShellSortMethods.RunPromises` | Shellsort.hpp:34-54 | The sort's result is a permutation, sorted when the last gap is 1, unchanged on sorted input at the minimum count, and unchanged at one operation per gap when every gap is at least the length |
| `ShellSortMethods.InstrumentedShellSort` | Shellsort.hpp:34-54 | The loops compute the model's array and count. The result is a permutation, sorted when the last gap is 1, at the exact count; sorted input is unchanged |
| `ShellSortMethods.NonNegative` | ShellsortResearch.cpp:17-19 | The gaps whose pass runs are exactly the non-negative ones, in input order: a subsequence of the input with the same number of each non-negative value and no negative one |
| `ShellSortMethods.NonNegativeLast` | ShellsortResearch.cpp:17-19 | A non-negative last gap stays the last pass |
| `ShellSortMethods.ResearchSift` | ShellsortResearch.cpp:21-27 | The `int` inner loop leaves the same array as the model's shifting loop |
| `ShellSortMethods.ResearchPass` | ShellsortResearch.cpp:19-28 | A pass with a non-negative gap is the model's pass; a negative gap fails the unsigned comparison at once and leaves the array unchanged |
| `ShellSortMethods.ResearchPromises` | ShellsortResearch.cpp:15-30 | Sorting with the kept gaps gives a permutation, sorted when the last gap is 1, and unchanged when every gap is negative or at least the length |
| `ShellSortMethods.ResearchShellSort` | ShellsortResearch.cpp:15-30 | Negative gaps are skipped. On non-negative gaps it leaves the instrumented sort's array: a permutation, sorted when the last gap is 1 |
| `Decimal.NatToString` | FilesManagement.hpp:32 | `to_string` of an unsigned value: non-empty, all digits, no leading zero |
| `Decimal.IntToString` | GeneticAlgorithm.hpp:38 | `to_string` of an `int` starts with '-' exactly for negative values, and the rest is digits whose value is the magnitude |
| `Decimal.IntToStringInjective` | GeneticAlgorithm.hpp:38-39 | Different population indices print differently, so children and fills of different populations get different names |
| `Decimal.NatToStringInjective` | FilesManagement.hpp:30 | Distinct values print differently |
| `Decimal.Stoul` | FilesManagement.hpp:56 | A value is never above the 64-bit maximum. A token without digits is `invalid_argument`. An all-digit token reads as its value, or `out_of_range` above the maximum |
| `Decimal.StoulOfNatToString` | FilesManagement.hpp:32-56 | Reading back a printed value in range gives the value |
| `Genetic.Continue` | GeneticAlgorithm.hpp:27-30 | The appended gaps are no more than the donor's, each taken from the donor and below the last kept gap |
| `Genetic.Partner` | GeneticAlgorithm.hpp:21-24 | The second parent is one of the parents. With an even number of parents, the pair starting at an even position is always that parent and the next; with an odd number, the last parent's partner is the first |
| `Genetic.ContinueShape` | GeneticAlgorithm.hpp:27-30 | What is appended after the kept half is a subsequence of the donor, strictly decreasing and below the last kept gap |
| `Genetic.ContinueKeepsRunningLows` | GeneticAlgorithm.hpp:27-30 | A donor value is appended exactly when it is below the last kept gap and below every donor value before it |
| `Genetic.ContinueEndsInOne` | GeneticAlgorithm.hpp:27-30 | A donor ending in 1 with everything else above 1 makes the continuation end in 1 |
| `Genetic.ChildGaps` | GeneticAlgorithm.hpp:26-30 | The child starts with the truncated first half of the primary parent |
| `Genetic.ChildTail` | GeneticAlgorithm.hpp:26-30 | After the half, the child holds no more than the donor's gaps, in donor order, strictly decreasing, below the half's last gap |
| `Genetic.ChildKeepsConvention` | GeneticAlgorithm.hpp:26-36 | Parents that are strictly decreasing and end in 1 give a child that is strictly decreasing and ends in 1 |
| `Genetic.CrossParents` | GeneticAlgorithm.hpp:15-43 | Two children per pair of parents: twice the number of pairs. `Genetic.CrossParentsOddWrap` states the odd last parent's pairing with the first |
| `Genetic.CrossParentsOddWrap` | GeneticAlgorithm.hpp:21-39 | With an odd number of parents, the last two children come from the last parent crossed with the first, in both roles |
| `Genetic.ChildName` | GeneticAlgorithm.hpp:38-39 | A child's name starts with `Child` |
| `Genetic.ChildNamesDistinct` | GeneticAlgorithm.hpp:38-39 | Within one generation, different child numbers give different names |
| `Genetic.FirstChild` | GeneticAlgorithm.hpp:21-30 | The first child of a pair starts with the unchanged first half of the pair's first parent |
| `Genetic.SecondChild` | GeneticAlgorithm.hpp:21-36 | The second child of a pair starts with the unchanged first half of the partner |
| `Genetic.CrossFromPair` | GeneticAlgorithm.hpp:19-39 | Positions 2p and 2p+1 hold pair p's children, named `Child<index>-<2p+1>` and `-<2p+2>` |
| `Genetic.CrossParentsInPairOrder` | GeneticAlgorithm.hpp:19-39 | Every pair's children appear in pair order |
| `Genetic.CrossKeepsConvention` | GeneticAlgorithm.hpp:15-43 | Well-formed parents breed only well-formed children |
| `Genetic.RandomName` | GeneticAlgorithm.hpp:54 | A newcomer's name starts with `Random` |
| `Genetic.ChildAndRandomNamesDiffer` | GeneticAlgorithm.hpp:49-54 | In the new population, a bred child (named `Child…` by crossParents) and a random newcomer never share a name |
| `Genetic.Fills` | GeneticAlgorithm.hpp:51-56 | The fill loop from slot k adds one freshly drawn sequence per missing slot, named `Random<index>-<slot+1>` |
| `Genetic.NewPopulation` | GeneticAlgorithm.hpp:45-59 | The new population has the old size. It starts with the children of the first half and fills the rest with drawn sequences |
| `Genetic.NewPopulationKeepsConvention` | GeneticAlgorithm.hpp:45-59 | If the breeding half and every draw are well formed, so is every member of the new population |
| `Benchmark.OpsOf` | ShellsortComparisions.hpp:33-43 | Every candidate is charged on the same data, so candidates with equal gaps get equal counts; each count is that of the modelled sort with the candidate's gaps |
| `Benchmark.Totals` | ShellsortComparisions.hpp:86-100 | One sum per candidate, and each candidate's sum is the sum of its own operation counts over the trials |
| `Benchmark.Wins` | ShellsortComparisions.hpp:102-106 | One win counter per candidate. `Benchmark.WinsCountTrials` states the value of each |
| `Benchmark.Averages` | ShellsortComparisions.hpp:47-113 | One entry per candidate, holding that candidate, or the default entry when there is no iteration |
| `Benchmark.Winner` | ShellsortComparisions.hpp:102-104 | The first result after sorting by operations is one of the fastest candidates |
| `Benchmark.AnyFastestCanWin` | ShellsortComparisions.hpp:102-104 | Every fastest candidate is first for some ordering of ties |
| `Benchmark.TrialWinner` | ShellsortComparisions.hpp:102-106 | The gap sequence credited with a trial's win is one of the candidates |
| `Benchmark.TrialWinnerIsFastest` | ShellsortComparisions.hpp:57-106 | The winner is a candidate, and on the data every candidate sorted it used no more operations than any of them |
| `Benchmark.WinsCountTrials` | ShellsortComparisions.hpp:106 | A candidate's wins are the number of trials its gap sequence won |
| `Benchmark.WinsBounded` | ShellsortComparisions.hpp:106 | At most one win per trial |
| `Benchmark.EqualCandidatesEqualWins` | ShellsortComparisions.hpp:106 | Equal gap sequences are credited together |
| `Benchmark.DistinctWinsTotal` | ShellsortComparisions.hpp:106 | With distinct candidates the wins add up to the number of trials |
| `Benchmark.AverageOfCandidate` | ShellsortComparisions.hpp:86-113 | Entry j is candidate j with its sum of counts divided by the iterations and its wins |
| `Benchmark.NoTrialsDefaults` | ShellsortComparisions.hpp:47-48 | With no iteration every entry keeps the default, where the code instead divides by zero iterations into NaN |
| `Benchmark.Insert` | ShellsortComparisions.hpp:116-118 | Inserting into an ordered list keeps it ordered by operations and adds exactly the one entry |
| `Benchmark.SortByOps` | ShellsortComparisions.hpp:116-118 | The final sort gives a rearrangement ascending by average operations |
| `Benchmark.Compare` | ShellsortComparisions.hpp:45-121 | One result per candidate, ascending by average operations, holding exactly the per-candidate averages |
| `Benchmark.CompareFirstIsFastest` | ShellsortComparisions.hpp:115-120 | No candidate averages fewer operations than the first result |
| `Benchmark.BatchJoins` | ShellsortComparisions.hpp:69-79 | The joins inside the launch loop only name threads that were launched |
| `Benchmark.JoinOrder` | ShellsortComparisions.hpp:69-80 | All joins only name threads that were launched |
| `Benchmark.BatchJoinsFrom` | ShellsortComparisions.hpp:69-79 | From thread j on, the in-loop joins are exactly the complete batches from j's batch up to the last complete one |
| `Benchmark.JoinOrderIsEveryThreadOnce` | ShellsortComparisions.hpp:69-80 | The batch joins and the final joins together join every thread exactly once, in launch order |
| `Split.Find` | FilesManagement.hpp:15 | `find` returns the first occurrence at or after the start, or none when there is none |
| `Split.SplitString` | FilesManagement.hpp:10-24 | There are never more tokens than characters. `Split.TokensNonEmptyAndFree` and `Split.SplitKeepsAllButDelimiters` state what the tokens are |
| `Split.TokensNonEmptyAndFree` | FilesManagement.hpp:15-22 | No token is empty and no token contains the delimiter |
| `Split.SplitKeepsAllButDelimiters` | FilesManagement.hpp:15-23 | The tokens joined are the input with its delimiter occurrences removed, left to right and without overlap |
| `Split.SplitFree` | FilesManagement.hpp:21-22 | Input without the delimiter gives itself if non-empty, else nothing |
| `Split.SplitAtFirst` | FilesManagement.hpp:15-20 | A piece without the delimiter, then the delimiter: that piece comes first, then the split of the rest |
| `Records.ResultsPath` | FilesManagement.hpp:30-42 | The path is a `.txt` file under `./Results/` whose name carries the range in decimal |
| `Records.ResultsPathInjective` | FilesManagement.hpp:30-42 | Both functions open the same path for a range, and different ranges have different files |
| `Records.GapsText` | FilesManagement.hpp:32 | Every gap is followed by a space: the text is empty exactly when there is no gap and otherwise ends in a space |
| `Records.FormatLine` | FilesManagement.hpp:31-33 | The line starts with the name followed by ':'. A storable sequence gives a line without a line break |
| `Records.ReadGaps` | FilesManagement.hpp:53-57 | Reading succeeds exactly when every token is a number; the gaps are the tokens' values in order |
| `Records.ParseLine` | FilesManagement.hpp:48-59 | A line reads exactly when it has at least two ':'-pieces and every space-separated token of the second reads as a number. The name is the first piece and the gaps are those tokens' values |
| `Records.ParseLineNeedsColon` | FilesManagement.hpp:48-51 | A line without ':' cannot be read |
| `Records.ParseLineRejectsBadGap` | FilesManagement.hpp:54-57 | A gap token that is not a number makes the line unreadable |
| `Records.SplitGapsText` | FilesManagement.hpp:32 | Splitting the written gap text at spaces gives each gap's decimal text |
| `Records.FormatThenParse` | FilesManagement.hpp:31-59 | A line written for a sequence with a non-empty name free of ':' and line breaks reads back as the same sequence |
| `Records.Lines` | FilesManagement.hpp:45-46 | `getline` yields no line from empty content and at least one otherwise, and no line holds a line break |
| `Records.LinesAppend` | FilesManagement.hpp:33-46 | Appending a line and its break to terminated content adds exactly that line to what `getline` yields |
| `Records.ParseLines` | FilesManagement.hpp:46-60 | The read succeeds exactly when every line parses, giving the parsed lines in order |
| `Records.Save` | FilesManagement.hpp:28-35 | Saving appends the formatted line and a line break to the range's file, keeping its previous content or creating it, and leaves every other file as it was |
| `Records.Load` | FilesManagement.hpp:38-64 | A file that cannot be opened and an empty file read as no sequences. Otherwise the read succeeds exactly when every line parses, and gives the parsed lines in order |
| `Records.LoadAfterSave` | FilesManagement.hpp:28-64 | Loading after a save gives what was there before, followed by the saved sequence |
| `Records.LoadAfterSaveAll` | FilesManagement.hpp:28-64 | Saving sequences into a new results file and loading it gives them back in order |

## Left out

- getTokudaGaps, getLeeGaps, getSkeanEhrenborgJaromczykGaps and getRandomizedGaps: floating point and random numbers. Random gaps enter `Genetic.NewPopulation` as the parameter `draw`.
- getRandomData and the timing in measureShellSort: random numbers and the clock. Trials are inputs and times are dropped.
- Threads, promises, futures and `hardware_concurrency`: only the join-index arithmetic is modelled. `Benchmark.JoinOrder` requires at least one core, because the code divides by the core count.
- The progress output of compareShellSorts, `PrintInstance`, the `main` functions, the `std::sort` baseline of ShellsortResearch.cpp and its unsynchronised global `results`: output and concurrency.
- iteratedGapsSeeking and endlessGapsSeeking: loops over the modelled operations that depend on random draws, the comparison's timing and file I/O.
- The Python plotting scripts: not part of the C++ core.
- File streams: a path absent from the map stands for a file that cannot be opened. A missing `./Results` directory, which makes the append silently do nothing, is not modelled.
- ShellSortMethods.InstrumentedShellSort: the count is an unbounded `nat`, so the wrap-around of the `unsigned long` counter past 2^64 - 1 is not modelled.
- Benchmark.Averages: sums and averages are exact reals rather than rounded `double`s. With zero iterations the code divides 0 by 0 and gets NaN, while the model leaves the default 0.
- Benchmark.NoTrialsDefaults: with zero iterations the code divides 0 by 0 (ShellsortComparisions.hpp:111-112) and ends with NaN time and operations; the model has no NaN and keeps the default 0.
- Benchmark.Winner: which of several equally fast candidates the unstable `std::sort` puts first is chosen by the trial's `tie` input, not by the library's algorithm.
- Benchmark.SortByOps: among equal averages it keeps the original order, one of the orders `std::sort` may produce. Its contract states only what `std::sort` guarantees.
- Decimal.Stoul: assumes a 64-bit `unsigned long`.
- Split.SplitString: requires a non-empty delimiter. With an empty one the C++ loop never advances.
- Genetic.CrossParents: requires every parent to have at least two gaps. With fewer, the kept half is empty, and the code reads `back()` of that empty vector as soon as the other parent has a gap, which is undefined behaviour. The one defined input this excludes is a pair of two empty gap sequences, whose children would be empty too. Such sequences arise only for a sorting range of at most 1, where Ciura's gaps are empty.
- Records.ParseLine: a line with fewer than two pieces is an error result. The code indexes past the end of the pieces, which is undefined behaviour, and a failing `stoul` throws an exception that ends the read.

=== FILE: arith.dfy ===
/** Facts about Euclidean division the index arithmetic needs. */
module Arith {

  /** Euclidean division is unique: `a == q * c + m` with `0 <= m < c` fixes `a / c` and `a % c`. */
  lemma ModUnique(a: nat, q: nat, m: nat, c: nat)
    requires m < c && a == q * c + m
    ensures a % c == m && a / c == q
  {
    MulStep(q, a / c, c);
    MulStep(a / c, q, c);
  }

  /** Multiplying by `c` keeps distinct factors at least `c` apart. */
  lemma {:induction false} MulStep(x: nat, y: nat, c: nat)
    ensures x < y ==> x * c + c <= y * c
    decreases y
  {
    if x + 1 < y {
      MulStep(x, y - 1, c);
      MulSucc(y - 1, c);
    } else if x + 1 == y {
      MulSucc(x, c);
    }
  }

  lemma MulSucc(x: nat, c: nat)
    ensures (x + 1) * c == x * c + c
  {
  }
}

=== FILE: benchmark.dfy ===
/**
  The aggregation of `compareShellSorts` (ShellsortComparisions.hpp): every candidate gap
  sequence sorts the same data in each trial, operation counts are summed per candidate, the
  trial's fastest candidate scores a win, the sums become averages, and the averages are
  ordered fastest first. The random data, the threads and the clock are outside the model:
  each trial is given as its data, together with `tie`, which picks among equally fast
  candidates the one the unstable `std::sort` happens to put first.
*/
module Benchmark {
  import opened Seqs
  import opened Gaps
  import opened ShellSort
  import opened Arith

  /** One iteration of the comparison loop: the shared random data and the tie choice. */
  datatype Trial = Trial(data: seq<int>, tie: nat)

  /** `struct Result` without its timing field; `double operations` becomes a `real`. */
  datatype Result = Result(operations: real, gapsSequence: GapsSequence, wins: nat)

  /** The entry of a default-constructed `Result`. */
  const Default := Result(0.0, GapsSequence("", []), 0)

  // ---------------------------------------------------------------- one trial

  /** Each candidate's operation count on the same data (`measureShellSort`). */
  function OpsOf(data: seq<int>, candidates: seq<GapsSequence>): (r: seq<nat>)
    ensures |r| == |candidates|
    ensures forall j :: 0 <= j < |r| ==> r[j] == Run(data, candidates[j].gaps).ops
    ensures forall i, j :: 0 <= i < |r| && 0 <= j < |r| && candidates[i].gaps == candidates[j].gaps ==> r[i] == r[j]
  {
    seq(|candidates|, j requires 0 <= j < |candidates| => Run(data, candidates[j].gaps).ops)
  }

  /** The smallest count. */
  function MinOf(s: seq<nat>): (m: nat)
    requires |s| > 0
    ensures m in s
    ensures forall k :: 0 <= k < |s| ==> m <= s[k]
  {
    if |s| == 1 then s[0]
    else
      var m := MinOf(s[1..]);
      if s[0] <= m then s[0] else m
  }

  /** The positions from `from` on holding `v`, in ascending order. */
  function IndicesOf(s: seq<nat>, v: nat, from: nat): (r: seq<nat>)
    ensures forall i :: 0 <= i < |r| ==> from <= r[i] < |s| && s[r[i]] == v
    ensures forall k :: from <= k < |s| && s[k] == v ==> k in r
    decreases |s| - from
  {
    if from >= |s| then []
    else if s[from] == v then [from] + IndicesOf(s, v, from + 1)
    else IndicesOf(s, v, from + 1)
  }

  /**
    The candidate first after sorting the trial's results by operations: one of the fastest,
    which one left to `tie` because `std::sort` does not keep equal elements in order: the
    `tie`-th fastest position, or the first when there are fewer.
  */
  function Winner(ops: seq<nat>, tie: nat): (w: nat)
    requires |ops| > 0
    ensures w < |ops|
    ensures forall k :: 0 <= k < |ops| ==> ops[w] <= ops[k]
  {
    var fastest := IndicesOf(ops, MinOf(ops), 0);
    if tie < |fastest| then fastest[tie] else fastest[0]
  }

  /** Conversely every fastest candidate is first for some ordering of the ties. */
  lemma AnyFastestCanWin(ops: seq<nat>, k: nat)
    requires k < |ops|
    requires forall i :: 0 <= i < |ops| ==> ops[k] <= ops[i]
    ensures exists tie: nat :: Winner(ops, tie) == k
  {
    var fastest := IndicesOf(ops, MinOf(ops), 0);
    assert k in fastest;
    var p :| 0 <= p < |fastest| && fastest[p] == k;
    assert Winner(ops, p) == k;
  }

  /** The gap sequence of the trial's first result (`results[0].gapsSequence`). */
  function TrialWinner(candidates: seq<GapsSequence>, trial: Trial): (r: GapsSequence)
    requires |candidates| > 0
    ensures r in candidates
  {
    candidates[Winner(OpsOf(trial.data, candidates), trial.tie)]
  }

  /** The winner sorted the trial's data in no more operations than any other candidate. */
  lemma TrialWinnerIsFastest(candidates: seq<GapsSequence>, trial: Trial)
    requires |candidates| > 0
    ensures TrialWinner(candidates, trial) in candidates
    ensures forall j :: 0 <= j < |candidates| ==>
              Run(trial.data, TrialWinner(candidates, trial).gaps).ops <= Run(trial.data, candidates[j].gaps).ops
  {
    var ops := OpsOf(trial.data, candidates);
    var w := Winner(ops, trial.tie);
    assert ops[w] == Run(trial.data, candidates[w].gaps).ops;
  }

  /**
    `if (r.gapsSequence == results[0].gapsSequence) r.wins++`: a 1 for every entry equal to the
    winner, so duplicated candidates all score.
  */
  function Hits(candidates: seq<GapsSequence>, winner: GapsSequence): (r: seq<nat>)
    ensures |r| == |candidates|
  {
    seq(|candidates|, k requires 0 <= k < |candidates| => if candidates[k] == winner then 1 else 0)
  }

  lemma {:induction false} SumHits(candidates: seq<GapsSequence>, winner: GapsSequence)
    ensures Sum(Hits(candidates, winner)) == Count(candidates, winner)
  {
    if |candidates| > 0 {
      var n := |candidates| - 1;
      SumHits(candidates[..n], winner);
      assert Hits(candidates, winner)[..n] == Hits(candidates[..n], winner);
    }
  }

  // ---------------------------------------------------------------- the iterations

  /** The per-candidate operation sums after the given trials (`avgResults[j].operations += ...`). */
  function Totals(candidates: seq<GapsSequence>, trials: seq<Trial>): (r: seq<nat>)
    ensures |r| == |candidates|
    ensures forall j :: 0 <= j < |r| ==> r[j] == Sum(Series(candidates[j].gaps, trials))
  {
    if |trials| == 0 then Zeros(|candidates|)
    else
      var before := Totals(candidates, trials[..|trials| - 1]);
      var ops := OpsOf(Last(trials).data, candidates);
      assert forall j :: 0 <= j < |candidates| ==>
               Sum(Series(candidates[j].gaps, trials)) == before[j] + ops[j] by {
        forall j | 0 <= j < |candidates|
          ensures Sum(Series(candidates[j].gaps, trials)) == before[j] + ops[j]
        {
          SeriesStep(candidates[j].gaps, trials);
        }
      }
      Plus(before, ops)
  }

  /** The last trial adds its own count to the candidate's series. */
  lemma SeriesStep(gaps: seq<nat>, trials: seq<Trial>)
    requires |trials| > 0
    ensures Sum(Series(gaps, trials))
              == Sum(Series(gaps, trials[..|trials| - 1])) + Run(Last(trials).data, gaps).ops
  {
    assert Series(gaps, trials)[..|trials| - 1] == Series(gaps, trials[..|trials| - 1]);
  }

  /** The per-candidate win counters after the given trials. */
  function Wins(candidates: seq<GapsSequence>, trials: seq<Trial>): (r: seq<nat>)
    ensures |r| == |candidates|
  {
    if |trials| == 0 || |candidates| == 0 then Zeros(|candidates|)
    else Plus(Wins(candidates, trials[..|trials| - 1]), Hits(candidates, TrialWinner(candidates, Last(trials))))
  }

  /** One candidate's operation counts, trial by trial. */
  function Series(gaps: seq<nat>, trials: seq<Trial>): (r: seq<nat>)
    ensures |r| == |trials|
  {
    seq(|trials|, t requires 0 <= t < |trials| => Run(trials[t].data, gaps).ops)
  }

  /** The winning gap sequence of every trial, in order. */
  function Winners(candidates: seq<GapsSequence>, trials: seq<Trial>): (r: seq<GapsSequence>)
    requires |candidates| > 0
    ensures |r| == |trials|
  {
    seq(|trials|, t requires 0 <= t < |trials| => TrialWinner(candidates, trials[t]))
  }

  /** Candidate `j`'s wins are the number of trials its gap sequence won. */
  lemma {:induction false} WinsCountTrials(candidates: seq<GapsSequence>, trials: seq<Trial>, j: nat)
    requires j < |candidates|
    ensures Wins(candidates, trials)[j] == Count(Winners(candidates, trials), candidates[j])
  {
    if |trials| > 0 {
      var n := |trials| - 1;
      WinsCountTrials(candidates, trials[..n], j);
      WinsStep(candidates, trials, j);
      WinnersStep(candidates, trials, candidates[j]);
    }
  }

  /** The last trial adds one win to every entry equal to its winner. */
  lemma WinsStep(candidates: seq<GapsSequence>, trials: seq<Trial>, j: nat)
    requires j < |candidates| && |trials| > 0
    ensures Wins(candidates, trials)[j] == Wins(candidates, trials[..|trials| - 1])[j]
              + (if TrialWinner(candidates, Last(trials)) == candidates[j] then 1 else 0)
  {
  }

  /** The last trial's winner is the last entry of the winners. */
  lemma WinnersStep(candidates: seq<GapsSequence>, trials: seq<Trial>, x: GapsSequence)
    requires |candidates| > 0 && |trials| > 0
    ensures Count(Winners(candidates, trials), x) == Count(Winners(candidates, trials[..|trials| - 1]), x)
              + (if TrialWinner(candidates, Last(trials)) == x then 1 else 0)
  {
    CountPrefix(Winners(candidates, trials), Winners(candidates, trials[..|trials| - 1]), x);
  }

  /** At most one win per trial. */
  lemma WinsBounded(candidates: seq<GapsSequence>, trials: seq<Trial>, j: nat)
    requires j < |candidates|
    ensures Wins(candidates, trials)[j] <= |trials|
  {
    WinsCountTrials(candidates, trials, j);
    CountBound(Winners(candidates, trials), candidates[j]);
  }

  /** Entries holding equal gap sequences are credited together, so they end with equal wins. */
  lemma EqualCandidatesEqualWins(candidates: seq<GapsSequence>, trials: seq<Trial>, i: nat, j: nat)
    requires i < |candidates| && j < |candidates| && candidates[i] == candidates[j]
    ensures Wins(candidates, trials)[i] == Wins(candidates, trials)[j]
  {
    WinsCountTrials(candidates, trials, i);
    WinsCountTrials(candidates, trials, j);
  }

  /** With distinct candidates each trial awards exactly one win. */
  lemma {:induction false} DistinctWinsTotal(candidates: seq<GapsSequence>, trials: seq<Trial>)
    requires |candidates| > 0 && Distinct(candidates)
    ensures Sum(Wins(candidates, trials)) == |trials|
  {
    if |trials| == 0 {
      SumZeros(|candidates|);
    } else {
      var n := |trials| - 1;
      DistinctWinsTotal(candidates, trials[..n]);
      var last := Last(trials);
      var w := Winner(OpsOf(last.data, candidates), last.tie);
      SumPlus(Wins(candidates, trials[..n]), Hits(candidates, candidates[w]));
      SumHits(candidates, candidates[w]);
      CountDistinct(candidates, w);
    }
  }

  // ---------------------------------------------------------------- the averages and the order

  /**
    `avgResults` after the division by `iterations`. With no iteration the loop never copies a
    result in, so the entries stay default-constructed.
  */
  function Averages(candidates: seq<GapsSequence>, trials: seq<Trial>): (r: seq<Result>)
    ensures |r| == |candidates|
    ensures forall j :: 0 <= j < |r| ==> r[j].gapsSequence == if |trials| > 0 then candidates[j] else Default.gapsSequence
  {
    if |trials| == 0 then seq(|candidates|, _ => Default)
    else
      var totals := Totals(candidates, trials);
      var wins := Wins(candidates, trials);
      seq(|candidates|, j requires 0 <= j < |candidates| =>
        Result(totals[j] as real / |trials| as real, candidates[j], wins[j]))
  }

  /** Entry `j` is candidate `j` with its mean operation count over the trials and its wins. */
  lemma AverageOfCandidate(candidates: seq<GapsSequence>, trials: seq<Trial>, j: nat)
    requires j < |candidates| && |trials| > 0
    ensures Averages(candidates, trials)[j].gapsSequence == candidates[j]
    ensures Averages(candidates, trials)[j].operations
              == Sum(Series(candidates[j].gaps, trials)) as real / |trials| as real
    ensures Averages(candidates, trials)[j].wins == Count(Winners(candidates, trials), candidates[j])
  {
    var total := Totals(candidates, trials)[j];
    WinsCountTrials(candidates, trials, j);
    assert Averages(candidates, trials)[j] == Result(total as real / |trials| as real, candidates[j], Wins(candidates, trials)[j]);
  }

  /** No trial, no candidate data: every entry is the default one. */
  lemma NoTrialsDefaults(candidates: seq<GapsSequence>, j: nat)
    requires j < |candidates|
    ensures Averages(candidates, [])[j] == Default
  {
  }

  /** Every pair in order of operations, fewest first. */
  ghost predicate Ascending(s: seq<Result>) {
    forall i, j :: 0 <= i < j < |s| ==> s[i].operations <= s[j].operations
  }

  /** Places `x` before the first entry of the ordered `s` that is not faster than it. */
  function Insert(x: Result, s: seq<Result>): (r: seq<Result>)
    requires Ascending(s)
    ensures multiset(r) == multiset(s) + multiset{x}
    ensures Ascending(r)
  {
    if |s| == 0 || x.operations <= s[0].operations then
      ConsAscending(x, s);
      [x] + s
    else
      var t := Insert(x, s[1..]);
      assert s == [s[0]] + s[1..];
      forall k | 0 <= k < |t|
        ensures s[0].operations <= t[k].operations
      {
        assert t[k] in multiset(s[1..]) + multiset{x};
      }
      ConsAscending(s[0], t);
      [s[0]] + t
  }

  /** An ordered list stays ordered when an entry no slower than all of it goes in front. */
  lemma ConsAscending(y: Result, t: seq<Result>)
    requires Ascending(t)
    requires forall k :: 0 <= k < |t| ==> y.operations <= t[k].operations
    ensures Ascending([y] + t)
  {
    var r := [y] + t;
    forall i, j | 0 <= i < j < |r|
      ensures r[i].operations <= r[j].operations
    {
      if i > 0 {
        assert r[i] == t[i - 1] && r[j] == t[j - 1];
      }
    }
  }

  /**
    The final `std::sort` of `avgResults` by operations: a rearrangement in ascending order,
    which is all `std::sort` promises; equal averages keep their original order here.
  */
  function SortByOps(s: seq<Result>): (r: seq<Result>)
    ensures multiset(r) == multiset(s)
    ensures Ascending(r)
  {
    if |s| == 0 then []
    else
      assert s == [s[0]] + s[1..];
      Insert(s[0], SortByOps(s[1..]))
  }

  /** `compareShellSorts`, with `iterations` the number of trials. */
  function Compare(candidates: seq<GapsSequence>, trials: seq<Trial>): (r: seq<Result>)
    ensures |r| == |candidates|
    ensures Ascending(r)
    ensures multiset(r) == multiset(Averages(candidates, trials))
  {
    var avg := Averages(candidates, trials);
    var r := SortByOps(avg);
    assert |r| == |multiset(r)| == |multiset(avg)| == |avg|;
    r
  }

  /** The first result is the fastest on average: no candidate averages fewer operations. */
  lemma CompareFirstIsFastest(candidates: seq<GapsSequence>, trials: seq<Trial>, j: nat)
    requires j < |candidates|
    ensures Compare(candidates, trials)[0].operations <= Averages(candidates, trials)[j].operations
  {
    var r := Compare(candidates, trials);
    var avg := Averages(candidates, trials);
    assert avg[j] in multiset(r);
    var k :| 0 <= k < |r| && r[k] == avg[j];
  }

  // ---------------------------------------------------------------- joining the threads

  /**
    The joins issued inside the launch loop: after thread `j` is started, when `j` closes a
    batch of `cores` threads (`j % cores == cores - 1`), the whole batch is joined in order.
  */
  function BatchJoins(n: nat, cores: nat, j: nat): (r: seq<nat>)
    requires cores >= 1
    ensures forall k :: 0 <= k < |r| ==> r[k] < n
    decreases n - j
  {
    if j >= n then []
    else (if j % cores == cores - 1 then Range(j + 1 - cores, j + 1) else []) + BatchJoins(n, cores, j + 1)
  }

  /** All joins: the batches, then the `n % cores` threads of the last incomplete batch. */
  function JoinOrder(n: nat, cores: nat): (r: seq<nat>)
    requires cores >= 1
    ensures forall k :: 0 <= k < |r| ==> r[k] < n
  {
    BatchJoins(n, cores, 0) + Range(n - n % cores, n)
  }

  /** Every thread is joined exactly once, in launch order. */
  lemma JoinOrderIsEveryThreadOnce(n: nat, cores: nat)
    requires cores >= 1
    ensures JoinOrder(n, cores) == Range(0, n)
  {
    BatchJoinsFrom(n, cores, 0);
    RangeSplit(0, n - n % cores, n);
  }

  lemma {:induction false} BatchJoinsFrom(n: nat, cores: nat, j: nat)
    requires cores >= 1 && j <= n
    ensures j - j % cores <= n - n % cores
    ensures BatchJoins(n, cores, j) == Range(j - j % cores, n - n % cores)
    decreases n - j
  {
    if j < n {
      BatchJoinsFrom(n, cores, j + 1);
      if j % cores == cores - 1 {
        BatchCloses(n, cores, j);
      } else {
        BatchContinues(n, cores, j);
      }
    }
  }

  /** Thread `j` closes a batch: the batch is joined, and thread `j + 1` opens the next one. */
  lemma BatchCloses(n: nat, cores: nat, j: nat)
    requires cores >= 1 && j < n && j % cores == cores - 1
    requires j + 1 - (j + 1) % cores <= n - n % cores
    requires BatchJoins(n, cores, j + 1) == Range(j + 1 - (j + 1) % cores, n - n % cores)
    ensures j - j % cores <= n - n % cores
    ensures BatchJoins(n, cores, j) == Range(j - j % cores, n - n % cores)
  {
    ModUnique(j + 1, j / cores + 1, 0, cores);
    RangeSplit(j + 1 - cores, j + 1, n - n % cores);
  }

  /** Thread `j` is inside a batch: nothing is joined yet, and `j + 1` is in the same batch. */
  lemma BatchContinues(n: nat, cores: nat, j: nat)
    requires cores >= 1 && j < n && j % cores != cores - 1
    requires j + 1 - (j + 1) % cores <= n - n % cores
    requires BatchJoins(n, cores, j + 1) == Range(j + 1 - (j + 1) % cores, n - n % cores)
    ensures j - j % cores <= n - n % cores
    ensures BatchJoins(n, cores, j) == Range(j - j % cores, n - n % cores)
  {
    ModUnique(j + 1, j / cores, j % cores + 1, cores);
  }
}

=== FILE: decimal.dfy ===
/**
  Decimal text for unsigned numbers: `std::to_string` and `std::stoul` (base 10), with the
  64-bit `unsigned long` range of an LP64 platform.
*/
module Decimal {
  import opened Outcomes

  /** Largest `unsigned long` value. */
  const ULongMax: nat := 0xFFFF_FFFF_FFFF_FFFF

  predicate IsDigit(c: char) {
    '0' <= c <= '9'
  }

  predicate AllDigits(s: string) {
    forall k :: 0 <= k < |s| ==> IsDigit(s[k])
  }

  /** The characters `isspace` accepts in the C locale. */
  predicate IsSpace(c: char) {
    c == ' ' || c == '\t' || c == '\n' || c == '\U{0B}' || c == '\U{0C}' || c == '\r'
  }

  function DigitChar(d: nat): (c: char)
    requires d < 10
    ensures IsDigit(c)
  {
    "0123456789"[d]
  }

  function DigitValue(c: char): nat
    requires IsDigit(c)
  {
    (c as int - '0' as int) as nat
  }

  /** `std::to_string` of a non-negative value: shortest decimal form, no leading zero. */
  function NatToString(n: nat): (r: string)
    ensures |r| > 0 && AllDigits(r)
    ensures |r| > 1 ==> r[0] != '0'
  {
    if n < 10 then [DigitChar(n)] else NatToString(n / 10) + [DigitChar(n % 10)]
  }

  /** `std::to_string` of an `int`: a minus sign before the magnitude of a negative value. */
  function IntToString(i: int): (r: string)
    ensures |r| > 0
    ensures i < 0 <==> r[0] == '-'
    ensures var digits := if i < 0 then r[1..] else r;
            |digits| > 0 && AllDigits(digits) && DigitsValue(digits) == if i < 0 then -i else i
  {
    if i < 0 then
      var m := NatToString(-i);
      DigitsOfNat(-i);
      assert ("-" + m)[1..] == m;
      "-" + m
    else
      DigitsOfNat(i);
      NatToString(i)
  }

  /** Distinct `int` values print differently. */
  lemma IntToStringInjective(i: int, j: int)
    requires IntToString(i) == IntToString(j)
    ensures i == j
  {
  }

  /** The value of a string of decimal digits, most significant first. */
  function DigitsValue(s: string): nat
    requires AllDigits(s)
  {
    if |s| == 0 then 0 else DigitsValue(s[..|s| - 1]) * 10 + DigitValue(s[|s| - 1])
  }

  lemma {:induction false} DigitsOfNat(n: nat)
    ensures DigitsValue(NatToString(n)) == n
  {
    if n >= 10 {
      var s := NatToString(n);
      assert s[..|s| - 1] == NatToString(n / 10);
      DigitsOfNat(n / 10);
    }
  }

  /** Distinct values print differently. */
  lemma NatToStringInjective(m: nat, n: nat)
    requires NatToString(m) == NatToString(n)
    ensures m == n
  {
    DigitsOfNat(m);
    DigitsOfNat(n);
  }

  /** Length of the longest all-digit prefix of `s`. */
  function DigitRun(s: string): (k: nat)
    ensures k <= |s| && AllDigits(s[..k])
    ensures k < |s| ==> !IsDigit(s[k])
  {
    if |s| == 0 || !IsDigit(s[0]) then 0
    else
      var k := 1 + DigitRun(s[1..]);
      assert s[..k] == [s[0]] + s[1..][..k - 1];
      k
  }

  /** Length of the leading run of white space. */
  function SpaceRun(s: string): (k: nat)
    ensures k <= |s|
    ensures forall i :: 0 <= i < k ==> IsSpace(s[i])
    ensures k < |s| ==> !IsSpace(s[k])
  {
    if |s| == 0 || !IsSpace(s[0]) then 0 else 1 + SpaceRun(s[1..])
  }

  /**
    `std::stoul(tok)` in base 10: leading white space is skipped, one optional sign is read,
    then the longest run of digits. No digit is `invalid_argument`; a magnitude above
    `ULongMax` is `out_of_range`; a minus sign negates modulo 2^64; text after the digits is
    ignored.
  */
  function Stoul(tok: string): (r: Outcome<nat>)
    ensures r.Ok? ==> r.value <= ULongMax
    ensures (forall k :: 0 <= k < |tok| ==> !IsDigit(tok[k])) ==> r == Err("invalid_argument")
    ensures |tok| > 0 && AllDigits(tok) ==>
              r == if DigitsValue(tok) <= ULongMax then Ok(DigitsValue(tok)) else Err("out_of_range")
  {
    DigitsReadWhole(tok);
    assert tok[0..] == tok && tok[..|tok|] == tok;
    var w := SpaceRun(tok);
    var rest := tok[w..];
    var negative := |rest| > 0 && rest[0] == '-';
    var signed := if |rest| > 0 && (rest[0] == '+' || rest[0] == '-') then 1 else 0;
    var digits := rest[signed..][..DigitRun(rest[signed..])];
    if |digits| == 0 then Err("invalid_argument")
    else
      var v := DigitsValue(digits);
      if v > ULongMax then Err("out_of_range")
      else if negative && v > 0 then Ok(ULongMax + 1 - v)
      else Ok(v)
  }

  lemma {:induction false} DigitsReadWhole(s: string)
    ensures |s| > 0 && AllDigits(s) ==> SpaceRun(s) == 0 && DigitRun(s) == |s|
  {
    if |s| > 0 && AllDigits(s) {
      DigitsReadWhole(s[1..]);
    }
  }

  /** Printing a value in range and reading it back gives the value. */
  lemma StoulOfNatToString(n: nat)
    requires n <= ULongMax
    ensures Stoul(NatToString(n)) == Ok(n)
  {
    var s := NatToString(n);
    assert !IsSpace(s[0]) && s[0] != '+' && s[0] != '-';
    assert SpaceRun(s) == 0;
    assert s[0..] == s;
    assert DigitRun(s) == |s|;
    assert s[..|s|] == s;
    DigitsOfNat(n);
  }
}

=== FILE: gaps.dfy ===
/** The gap-sequence entity and the Ciura seed generator (Shellsort.hpp). */
module Gaps {
  import opened Seqs

  /** A named list of gaps; `unsigned long` gaps become `nat`. */
  datatype GapsSequence = GapsSequence(name: string, gaps: seq<nat>)

  /** `GapsSequence::operator==`: names and gap lists both match. */
  predicate Same(x: GapsSequence, y: GapsSequence) {
    x.name == y.name && x.gaps == y.gaps
  }

  /** The comparison is exactly structural equality, so it is an equivalence. */
  lemma SameIsEquality(x: GapsSequence, y: GapsSequence)
    ensures Same(x, y) <==> x == y
  {
  }

  /** Ciura's experimentally found gaps with the later 1750 extension, ascending. */
  const CiuraTable: seq<nat> := [1, 4, 10, 23, 57, 132, 301, 701, 1750]

  /** The leading elements of `s` below `bound`: the loop that breaks at the first gap >= bound. */
  function TakeBelow(s: seq<nat>, bound: nat): (r: seq<nat>)
    ensures |r| <= |s| && r == s[..|r|]
    ensures forall k :: 0 <= k < |r| ==> r[k] < bound
    ensures |r| < |s| ==> s[|r|] >= bound
  {
    if |s| == 0 || s[0] >= bound then [] else [s[0]] + TakeBelow(s[1..], bound)
  }

  /** `getCiuraGaps(sortingRange)`. */
  function CiuraGaps(sortingRange: nat): (r: GapsSequence)
    ensures r.name == "Ciura"
    ensures StrictlyDecreasing(r.gaps)
    ensures forall k :: 0 <= k < |r.gaps| ==> r.gaps[k] < sortingRange
    ensures sortingRange <= 1 <==> |r.gaps| == 0
    ensures sortingRange > 1 ==> Last(r.gaps) == 1
    ensures forall g :: g in r.gaps <==> g in CiuraTable && g < sortingRange
  {
    var kept := TakeBelow(CiuraTable, sortingRange);
    CiuraAscending();
    TakeBelowAscending(CiuraTable, sortingRange);
    ReverseMembers(kept);
    GapsSequence("Ciura", Reverse(kept))
  }

  /** On an ascending list, stopping at the first element >= bound keeps every element below it. */
  lemma TakeBelowAscending(s: seq<nat>, bound: nat)
    requires forall i, j :: 0 <= i < j < |s| ==> s[i] < s[j]
    ensures forall g :: g in TakeBelow(s, bound) <==> g in s && g < bound
  {
    var r := TakeBelow(s, bound);
    forall g | g in s && g < bound
      ensures g in r
    {
      var k :| 0 <= k < |s| && s[k] == g;
      assert r[k] == g;
    }
  }

  lemma ReverseMembers<T>(s: seq<T>)
    ensures forall x :: x in Reverse(s) <==> x in s
  {
    var r := Reverse(s);
    forall x | x in s
      ensures x in r
    {
      var k :| 0 <= k < |s| && s[k] == x;
      assert r[|s| - 1 - k] == x;
    }
  }

  lemma CiuraAscending()
    ensures forall i, j :: 0 <= i < j < |CiuraTable| ==> CiuraTable[i] < CiuraTable[j]
  {
  }
}

=== FILE: genetic.dfy ===
/**
  Recombination and repopulation of the genetic gap search (GeneticAlgorithm.hpp):
  `crossParents` and `getNewPopulation`. The random gap generator is a parameter.
*/
module Genetic {
  import opened Seqs
  import opened Gaps
  import opened Decimal

  /** `donor[k]` is below every donor element before it: the running minima of the donor. */
  predicate RunningLow(donor: seq<nat>, k: nat)
    requires k < |donor|
  {
    forall i :: 0 <= i < k ==> donor[i] > donor[k]
  }

  /**
    The loop `for (gap : donor) if (gap < child.back()) child.push_back(gap)`, where `last` is
    the current back of the child.
  */
  function Continue(last: nat, donor: seq<nat>): (r: seq<nat>)
    ensures |r| <= |donor|
    ensures forall x :: x in r ==> x in donor && x < last
    decreases |donor|
  {
    if |donor| == 0 then []
    else if donor[0] < last then [donor[0]] + Continue(donor[0], donor[1..])
    else Continue(last, donor[1..])
  }

  /** The continuation is drawn from the donor in order, strictly decreasing, and below `last`. */
  lemma {:induction false} ContinueShape(last: nat, donor: seq<nat>)
    ensures IsSubsequence(Continue(last, donor), donor)
    ensures StrictlyDecreasing(Continue(last, donor))
    ensures forall k :: 0 <= k < |Continue(last, donor)| ==> Continue(last, donor)[k] < last
    decreases |donor|
  {
    if |donor| > 0 {
      var d := donor[0];
      if d < last {
        ContinueShape(d, donor[1..]);
        var t := Continue(d, donor[1..]);
        assert ([d] + t)[1..] == t;
      } else {
        ContinueShape(last, donor[1..]);
      }
    }
  }

  /**
    The continuation keeps exactly the donor's running minima that are below `last`; being
    strictly decreasing, it is determined by which values it holds.
  */
  lemma {:induction false} ContinueKeepsRunningLows(last: nat, donor: seq<nat>)
    ensures forall v :: v in Continue(last, donor) <==>
              v < last && exists k :: 0 <= k < |donor| && donor[k] == v && RunningLow(donor, k)
    decreases |donor|
  {
    if |donor| > 0 {
      var d := donor[0];
      var t := donor[1..];
      var next := if d < last then d else last;
      ContinueKeepsRunningLows(next, t);
      forall v
        ensures v in Continue(last, donor) <==>
                v < last && exists k :: 0 <= k < |donor| && donor[k] == v && RunningLow(donor, k)
      {
        if v in Continue(last, donor) {
          if d < last && v == d {
            assert RunningLow(donor, 0);
          } else {
            assert v in Continue(next, t);
            var k' :| 0 <= k' < |t| && t[k'] == v && RunningLow(t, k');
            assert donor[k' + 1] == v;
            assert RunningLow(donor, k' + 1);
          }
        }
        if v < last && exists k :: 0 <= k < |donor| && donor[k] == v && RunningLow(donor, k) {
          var k :| 0 <= k < |donor| && donor[k] == v && RunningLow(donor, k);
          if k > 0 {
            assert t[k - 1] == v;
            assert RunningLow(t, k - 1);
            assert v < next;
            assert v in Continue(next, t);
          }
        }
      }
    }
  }

  /** If the donor ends in 1 and nothing before that is 1 or less, a continuation from above 1 ends in 1. */
  lemma {:induction false} ContinueEndsInOne(last: nat, donor: seq<nat>)
    requires last > 1 && |donor| > 0 && Last(donor) == 1
    requires forall k :: 0 <= k < |donor| - 1 ==> donor[k] > 1
    ensures |Continue(last, donor)| > 0 && Last(Continue(last, donor)) == 1
    decreases |donor|
  {
    if |donor| > 1 {
      ContinueEndsInOne(if donor[0] < last then donor[0] else last, donor[1..]);
    }
  }

  /**
    One child: the first half (truncated) of the primary parent's gaps, then the donor's
    gaps that continue it strictly downwards. The primary parent needs at least two gaps,
    otherwise the half is empty and the C++ reads `back()` of an empty vector.
  */
  function ChildGaps(primary: seq<nat>, donor: seq<nat>): (r: seq<nat>)
    requires |primary| >= 2
    ensures |primary| / 2 <= |r|
    ensures r[..|primary| / 2] == primary[..|primary| / 2]
  {
    var prefix := primary[..|primary| / 2];
    prefix + Continue(Last(prefix), donor)
  }

  /**
    What follows the kept half: a subsequence of the donor, strictly decreasing, every
    element below the last kept gap, and no longer than the donor.
  */
  lemma ChildTail(primary: seq<nat>, donor: seq<nat>)
    requires |primary| >= 2
    ensures var r := ChildGaps(primary, donor);
            var half := |primary| / 2;
            && |r| <= half + |donor|
            && IsSubsequence(r[half..], donor)
            && StrictlyDecreasing(r[half..])
            && forall k :: half <= k < |r| ==> r[k] < primary[half - 1]
  {
    var half := |primary| / 2;
    var tail := Continue(primary[half - 1], donor);
    ContinueShape(primary[half - 1], donor);
    SubsequenceLength(tail, donor);
    assert ChildGaps(primary, donor)[half..] == tail;
  }

  lemma {:induction false} SubsequenceLength<T>(sub: seq<T>, s: seq<T>)
    requires IsSubsequence(sub, s)
    ensures |sub| <= |s|
    decreases |s|
  {
    if |sub| > 0 {
      if sub[0] == s[0] {
        SubsequenceLength(sub[1..], s[1..]);
      } else {
        SubsequenceLength(sub, s[1..]);
      }
    }
  }

  /** The gap-list convention: strictly decreasing and ending in 1. */
  predicate WellFormedGaps(gaps: seq<nat>) {
    |gaps| > 0 && StrictlyDecreasing(gaps) && Last(gaps) == 1
  }

  /** Crossing two well-formed parents gives a well-formed child. */
  lemma ChildKeepsConvention(primary: seq<nat>, donor: seq<nat>)
    requires |primary| >= 2
    requires WellFormedGaps(primary) && WellFormedGaps(donor)
    ensures WellFormedGaps(ChildGaps(primary, donor))
  {
    var half := |primary| / 2;
    var prefix := primary[..half];
    assert Last(prefix) > 1 by {
      assert Last(prefix) == primary[half - 1] > primary[|primary| - 1];
    }
    forall k | 0 <= k < |donor| - 1
      ensures donor[k] > 1
    {
      assert donor[k] > donor[|donor| - 1];
    }
    ContinueEndsInOne(Last(prefix), donor);
    ContinueShape(Last(prefix), donor);
    var tail := Continue(Last(prefix), donor);
    assert StrictlyDecreasing(prefix) by {
      forall i, j | 0 <= i < j < |prefix|
        ensures prefix[i] > prefix[j]
      {
        assert prefix[i] == primary[i] && prefix[j] == primary[j];
      }
    }
    ConcatDecreasing(prefix, tail);
  }

  /** A strictly decreasing list continued by a strictly decreasing tail below its last element. */
  lemma ConcatDecreasing(prefix: seq<nat>, tail: seq<nat>)
    requires |prefix| > 0
    requires StrictlyDecreasing(prefix) && StrictlyDecreasing(tail)
    requires forall k :: 0 <= k < |tail| ==> tail[k] < Last(prefix)
    ensures StrictlyDecreasing(prefix + tail)
  {
    var r := prefix + tail;
    forall i, j | 0 <= i < j < |r|
      ensures r[i] > r[j]
    {
      if j < |prefix| {
      } else if i < |prefix| {
        assert r[i] >= Last(prefix) > tail[j - |prefix|];
      } else {
        assert r[i] == tail[i - |prefix|] && r[j] == tail[j - |prefix|];
      }
    }
  }

  /** The second parent of the pair starting at `i`: the next one, or the first when none is left. */
  function Partner(parents: seq<GapsSequence>, i: nat): (r: GapsSequence)
    requires i < |parents|
    ensures r in parents
    ensures i % 2 == 0 && |parents| % 2 == 0 ==> i + 1 < |parents| && r == parents[i + 1]
    ensures i == |parents| - 1 && |parents| % 2 == 1 ==> r == parents[0]
  {
    if i + 1 < |parents| then parents[i + 1] else parents[0]
  }

  /** `"Child" + to_string(populationIndex) + "-" + to_string(n)`. */
  function ChildName(populationIndex: int, n: nat): (r: string)
    ensures |r| > 5 && r[..5] == "Child"
  {
    "Child" + IntToString(populationIndex) + "-" + NatToString(n)
  }

  /** Within one generation the children's names are pairwise different. */
  lemma ChildNamesDistinct(populationIndex: int, m: nat, n: nat)
    requires m != n
    ensures ChildName(populationIndex, m) != ChildName(populationIndex, n)
  {
    var prefix := "Child" + IntToString(populationIndex) + "-";
    assert ChildName(populationIndex, m)[|prefix|..] == NatToString(m);
    assert ChildName(populationIndex, n)[|prefix|..] == NatToString(n);
    if ChildName(populationIndex, m) == ChildName(populationIndex, n) {
      NatToStringInjective(m, n);
    }
  }

  /** Every parent can be crossed: each has at least two gaps. */
  predicate Crossable(parents: seq<GapsSequence>) {
    forall k :: 0 <= k < |parents| ==> |parents[k].gaps| >= 2
  }

  /** The first child of the pair starting at `i`: half of `parents[i]`, continued from its partner. */
  function FirstChild(parents: seq<GapsSequence>, populationIndex: int, i: nat): (r: GapsSequence)
    requires Crossable(parents) && i < |parents|
    ensures var half := |parents[i].gaps| / 2;
            half <= |r.gaps| && r.gaps[..half] == parents[i].gaps[..half]
  {
    GapsSequence(ChildName(populationIndex, i + 1), ChildGaps(parents[i].gaps, Partner(parents, i).gaps))
  }

  /** The second child of the pair starting at `i`: the roles of the two parents swapped. */
  function SecondChild(parents: seq<GapsSequence>, populationIndex: int, i: nat): (r: GapsSequence)
    requires Crossable(parents) && i < |parents|
    ensures var half := |Partner(parents, i).gaps| / 2;
            half <= |r.gaps| && r.gaps[..half] == Partner(parents, i).gaps[..half]
  {
    GapsSequence(ChildName(populationIndex, i + 2), ChildGaps(Partner(parents, i).gaps, parents[i].gaps))
  }

  /** Number of pairs formed from `m` parents: one per two, the odd one out paired anew. */
  function PairCount(m: nat): nat {
    if m <= 1 then m else 1 + PairCount(m - 2)
  }

  lemma {:induction false} PairCountIsHalf(m: nat)
    ensures PairCount(m) == (m + 1) / 2
  {
    if m > 1 {
      PairCountIsHalf(m - 2);
    }
  }

  /**
    The shape of the pair loop `for (i = start; i < n; i += 2)` that emits `first(i)` and then
    `second(i)` for each pair start `i`.
  */
  function Pairwise<T>(n: nat, i: nat, first: nat --> T, second: nat --> T): (r: seq<T>)
    requires forall j :: i <= j < n ==> first.requires(j) && second.requires(j)
    ensures |r| == if i < n then 2 * PairCount(n - i) else 0
    decreases n - i
  {
    if i >= n then [] else [first(i), second(i)] + Pairwise(n, i + 2, first, second)
  }

  lemma {:induction false} PairwiseAt<T>(n: nat, i: nat, first: nat --> T, second: nat --> T, p: nat)
    requires forall j :: i <= j < n ==> first.requires(j) && second.requires(j)
    requires i + 2 * p < n
    ensures 2 * p + 1 < |Pairwise(n, i, first, second)|
    ensures Pairwise(n, i, first, second)[2 * p] == first(i + 2 * p)
    ensures Pairwise(n, i, first, second)[2 * p + 1] == second(i + 2 * p)
    decreases p
  {
    if p > 0 {
      PairwiseAt(n, i + 2, first, second, p - 1);
    }
  }

  /** `FirstChild` of a fixed parent list, as a partial function of the pair start. */
  function FirstChildren(parents: seq<GapsSequence>, populationIndex: int): nat --> GapsSequence {
    (i: nat) requires Crossable(parents) && i < |parents| => FirstChild(parents, populationIndex, i)
  }

  function SecondChildren(parents: seq<GapsSequence>, populationIndex: int): nat --> GapsSequence {
    (i: nat) requires Crossable(parents) && i < |parents| => SecondChild(parents, populationIndex, i)
  }

  lemma CrossFromPair(parents: seq<GapsSequence>, populationIndex: int, p: nat)
    requires Crossable(parents)
    requires 2 * p < |parents|
    ensures 2 * p + 1 < |CrossParents(parents, populationIndex)|
    ensures CrossParents(parents, populationIndex)[2 * p] == FirstChild(parents, populationIndex, 2 * p)
    ensures CrossParents(parents, populationIndex)[2 * p + 1] == SecondChild(parents, populationIndex, 2 * p)
  {
    PairwiseAt(|parents|, 0, FirstChildren(parents, populationIndex), SecondChildren(parents, populationIndex), p);
  }

  /**
    `crossParents(parents, populationIndex)`: two children per pair; an odd last parent is
    paired with the first.
  */
  function CrossParents(parents: seq<GapsSequence>, populationIndex: int): (r: seq<GapsSequence>)
    requires Crossable(parents)
    ensures |r| == 2 * ((|parents| + 1) / 2)
  {
    PairCountIsHalf(|parents|);
    Pairwise(|parents|, 0, FirstChildren(parents, populationIndex), SecondChildren(parents, populationIndex))
  }

  /** With an odd number of parents the last one is crossed with the first, in both roles. */
  lemma CrossParentsOddWrap(parents: seq<GapsSequence>, populationIndex: int)
    requires Crossable(parents) && |parents| % 2 == 1
    ensures var children := CrossParents(parents, populationIndex);
            && |parents| < |children|
            && children[|parents| - 1].gaps == ChildGaps(Last(parents).gaps, parents[0].gaps)
            && children[|parents|].gaps == ChildGaps(parents[0].gaps, Last(parents).gaps)
  {
    var n := |parents| - 1;
    var p := n / 2;
    assert 2 * p == n;
    CrossFromPair(parents, populationIndex, p);
    LastPairWraps(parents, populationIndex);
  }

  /** The pair starting at the odd last parent takes the first parent as partner. */
  lemma LastPairWraps(parents: seq<GapsSequence>, populationIndex: int)
    requires Crossable(parents) && |parents| % 2 == 1
    ensures FirstChild(parents, populationIndex, |parents| - 1).gaps == ChildGaps(Last(parents).gaps, parents[0].gaps)
    ensures SecondChild(parents, populationIndex, |parents| - 1).gaps == ChildGaps(parents[0].gaps, Last(parents).gaps)
  {
    assert Partner(parents, |parents| - 1) == parents[0];
  }

  /** The children come in pair order: positions `2p` and `2p+1` hold the children of pair `p`. */
  lemma CrossParentsInPairOrder(parents: seq<GapsSequence>, populationIndex: int)
    requires Crossable(parents)
    ensures forall p :: 0 <= 2 * p < |parents| ==>
              && 2 * p + 1 < |CrossParents(parents, populationIndex)|
              && CrossParents(parents, populationIndex)[2 * p] == FirstChild(parents, populationIndex, 2 * p)
              && CrossParents(parents, populationIndex)[2 * p + 1] == SecondChild(parents, populationIndex, 2 * p)
  {
    forall p | 0 <= 2 * p < |parents|
      ensures 2 * p + 1 < |CrossParents(parents, populationIndex)|
      ensures CrossParents(parents, populationIndex)[2 * p] == FirstChild(parents, populationIndex, 2 * p)
      ensures CrossParents(parents, populationIndex)[2 * p + 1] == SecondChild(parents, populationIndex, 2 * p)
    {
      CrossFromPair(parents, populationIndex, p);
    }
  }

  /** Splits an index into its pair and its place within the pair. */
  lemma {:induction false} Halve(k: nat) returns (p: nat)
    ensures k == 2 * p || k == 2 * p + 1
  {
    if k >= 2 {
      p := Halve(k - 2);
      p := p + 1;
    } else {
      p := 0;
    }
  }

  /** A child position below `2 * PairCount(n)` belongs to a pair that starts inside the parents. */
  lemma {:induction false} PairInRange(n: nat, p: nat)
    requires 2 * p < 2 * PairCount(n)
    ensures 2 * p < n
    decreases n
  {
    if p > 0 && n > 1 {
      PairInRange(n - 2, p - 1);
    }
  }

  /** Well-formed parents breed only well-formed children. */
  lemma CrossKeepsConvention(parents: seq<GapsSequence>, populationIndex: int)
    requires Crossable(parents)
    requires forall k :: 0 <= k < |parents| ==> WellFormedGaps(parents[k].gaps)
    ensures forall k :: 0 <= k < |CrossParents(parents, populationIndex)| ==>
              WellFormedGaps(CrossParents(parents, populationIndex)[k].gaps)
  {
    var r := CrossParents(parents, populationIndex);
    forall k | 0 <= k < |r|
      ensures WellFormedGaps(r[k].gaps)
    {
      var p := Halve(k);
      PairInRange(|parents|, p);
      CrossFromPair(parents, populationIndex, p);
      var i := 2 * p;
      ChildKeepsConvention(parents[i].gaps, Partner(parents, i).gaps);
      ChildKeepsConvention(Partner(parents, i).gaps, parents[i].gaps);
    }
  }

  /** `"Random" + to_string(populationIndex) + "-" + to_string(n)`. */
  function RandomName(populationIndex: int, n: nat): (r: string)
    ensures |r| > 6 && r[..6] == "Random"
  {
    "Random" + IntToString(populationIndex) + "-" + NatToString(n)
  }

  /** A bred child and a random newcomer never share a name. */
  lemma ChildAndRandomNamesDiffer(i: int, m: nat, j: int, n: nat)
    ensures ChildName(i, m) != RandomName(j, n)
  {
    assert ChildName(i, m)[0] == 'C' && RandomName(j, n)[0] == 'R';
  }

  /**
    `getNewPopulation(sortingRange, oldPopulation, populationIndex)`: children of the first
    half (truncated) of the old population, then fresh sequences up to the old size. `draw(k)`
    stands for the gaps `getRandomizedGaps(sortingRange)` returns when slot `k` is filled.
  */
  function NewPopulation(oldPopulation: seq<GapsSequence>, populationIndex: int, draw: nat -> seq<nat>)
    : (r: seq<GapsSequence>)
    requires Crossable(oldPopulation[..|oldPopulation| / 2])
    ensures |r| == |oldPopulation|
    ensures var children := CrossParents(oldPopulation[..|oldPopulation| / 2], populationIndex);
            |children| <= |r| && r[..|children|] == children
    ensures forall k :: 2 * ((|oldPopulation| / 2 + 1) / 2) <= k < |r| ==>
              r[k] == GapsSequence(RandomName(populationIndex, k + 1), draw(k))
  {
    var n := |oldPopulation|;
    var children := CrossParents(oldPopulation[..n / 2], populationIndex);
    var c := |children|;
    children + Fills(populationIndex, draw, c, n)
  }

  /** The fill loop `for (i = newPopulation.size(); i < oldPopulation.size(); i++)` from slot `k`. */
  function Fills(populationIndex: int, draw: nat -> seq<nat>, k: nat, n: nat): (r: seq<GapsSequence>)
    ensures |r| == if k <= n then n - k else 0
    ensures forall m :: 0 <= m < |r| ==> r[m] == GapsSequence(RandomName(populationIndex, k + m + 1), draw(k + m))
    decreases n - k
  {
    if k >= n then []
    else
      var head := GapsSequence(RandomName(populationIndex, k + 1), draw(k));
      var rest := Fills(populationIndex, draw, k + 1, n);
      var r := [head] + rest;
      assert r[0] == head;
      assert forall m :: 0 < m < |r| ==> r[m] == rest[m - 1] && k + 1 + (m - 1) == k + m;
      r
  }

  /**
    Repopulation preserves the gap-list convention: if the breeding half and every random
    draw are strictly decreasing and end in 1, so is every member of the new population.
  */
  lemma NewPopulationKeepsConvention(oldPopulation: seq<GapsSequence>, populationIndex: int, draw: nat -> seq<nat>)
    requires Crossable(oldPopulation[..|oldPopulation| / 2])
    requires forall k :: 0 <= k < |oldPopulation| / 2 ==> WellFormedGaps(oldPopulation[k].gaps)
    requires forall k: nat :: WellFormedGaps(draw(k))
    ensures forall k :: 0 <= k < |oldPopulation| ==>
              WellFormedGaps(NewPopulation(oldPopulation, populationIndex, draw)[k].gaps)
  {
    var parents := oldPopulation[..|oldPopulation| / 2];
    CrossKeepsConvention(parents, populationIndex);
    var children := CrossParents(parents, populationIndex);
    var r := NewPopulation(oldPopulation, populationIndex, draw);
    forall k | 0 <= k < |oldPopulation|
      ensures WellFormedGaps(r[k].gaps)
    {
      if k < |children| {
        assert r[k] == children[k];
      }
    }
  }
}

=== FILE: outcomes.dfy ===
/** Success or failure of an operation the C++ would abort with an exception or undefined access. */
module Outcomes {

  datatype Outcome<T> = Ok(value: T) | Err(reason: string) {
    predicate IsFailure() {
      Err?
    }

    function PropagateFailure<U>(): Outcome<U>
      requires Err?
    {
      Err(reason)
    }

    function Extract(): T
      requires Ok?
    {
      value
    }
  }
}

=== FILE: records.dfy ===
/**
  The results file of FilesManagement.hpp: one line per saved gap sequence, `name: g1 g2 ... `,
  appended by `saveGapsToFile` and read back by `getGapsFromFile`. The file system is a map from
  path to content; a path absent from the map is a file that cannot be opened.
*/
module Records {
  import opened Seqs
  import opened Gaps
  import opened Outcomes
  import opened Decimal
  import opened Split

  /** Path to content. */
  type Files = map<string, string>

  /**
    The file both functions open for a given sorting range: a `.txt` file in `./Results/`
    whose name carries the range in decimal, so the range can be read back from the path.
  */
  function ResultsPath(sortingRange: nat): (r: string)
    ensures |r| == 31 + |NatToString(sortingRange)|
    ensures r[..10] == "./Results/" && r[|r| - 4..] == ".txt"
    ensures r[27..|r| - 4] == NatToString(sortingRange)
  {
    "./Results/BestGapsSequences" + NatToString(sortingRange) + ".txt"
  }

  /** Different sorting ranges never share a results file. */
  lemma ResultsPathInjective(a: nat, b: nat)
    requires ResultsPath(a) == ResultsPath(b)
    ensures a == b
  {
    NatToStringInjective(a, b);
  }

  // ---------------------------------------------------------------- one line

  /** The text holds no line break. */
  predicate NoBreak(s: string) {
    forall i :: 0 <= i < |s| ==> s[i] != '\n'
  }

  /**
    `for (gap : gaps) line += to_string(gap) + " "`: every gap is followed by a space, so the
    text is empty exactly when there is no gap and otherwise ends in a space.
  */
  function GapsText(gaps: seq<nat>): (r: string)
    ensures |r| >= 2 * |gaps|
    ensures |r| == 0 <==> |gaps| == 0
    ensures |gaps| > 0 ==> Last(r) == ' '
  {
    if |gaps| == 0 then "" else NatToString(gaps[0]) + " " + GapsText(gaps[1..])
  }

  /**
    The line `saveGapsToFile` writes, without its newline: the name, then ':'. A storable
    sequence gives a line without a line break, so it stays one line of the file.
  */
  function FormatLine(g: GapsSequence): (r: string)
    ensures |r| > |g.name| && r[..|g.name|] == g.name && r[|g.name|] == ':'
    ensures Storable(g) ==> NoBreak(r)
  {
    var text := GapsText(g.gaps);
    var line := g.name + ": " + text;
    GapsTextChars(g.gaps);
    assert forall i :: |g.name| + 2 <= i < |line| ==> line[i] == text[i - |g.name| - 2];
    line
  }

  /** `gaps.push_back(std::stoul(gap))` for every token; the first failure is thrown out. */
  function ReadGaps(tokens: seq<string>): (r: Outcome<seq<nat>>)
    ensures r.Ok? ==> |r.value| == |tokens|
    ensures r.Ok? <==> forall k :: 0 <= k < |tokens| ==> Stoul(tokens[k]).Ok?
    ensures r.Ok? ==> forall k :: 0 <= k < |tokens| ==> r.value[k] == Stoul(tokens[k]).value
  {
    if |tokens| == 0 then Ok([])
    else
      var first :- Stoul(tokens[0]);
      var rest :- ReadGaps(tokens[1..]);
      Ok([first] + rest)
  }

  /**
    One iteration of the reading loop: split at ':', take the first piece as the name and
    read the second piece's space-separated tokens as gaps. A line with fewer than two pieces
    indexes past the end of the pieces.
  */
  function ParseLine(line: string): (r: Outcome<GapsSequence>)
    ensures r.Ok? <==> |SplitString(line, ":")| >= 2 &&
                       ReadGaps(SplitString(SplitString(line, ":")[1], " ")).Ok?
    ensures r.Ok? ==> r.value.name == SplitString(line, ":")[0] &&
                      ReadGaps(SplitString(SplitString(line, ":")[1], " ")) == Ok(r.value.gaps)
  {
    var parts := SplitString(line, ":");
    if |parts| < 2 then Err("index out of range")
    else
      var gaps :- ReadGaps(SplitString(parts[1], " "));
      Ok(GapsSequence(parts[0], gaps))
  }

  /** A line without ':' has at most one piece and so cannot be read. */
  lemma ParseLineNeedsColon(line: string)
    requires forall i :: 0 <= i < |line| ==> line[i] != ':'
    ensures ParseLine(line).Err?
  {
    SplitNoChar(line, ':');
  }

  /** A gap token that is not a number stops the reading. */
  lemma ParseLineRejectsBadGap(line: string, k: nat)
    requires |SplitString(line, ":")| >= 2
    requires k < |SplitString(SplitString(line, ":")[1], " ")|
    requires Stoul(SplitString(SplitString(line, ":")[1], " ")[k]).Err?
    ensures ParseLine(line).Err?
  {
  }

  /** What can be saved and read back: a non-empty name without ':' or a line break, gaps in range. */
  predicate Storable(g: GapsSequence) {
    && |g.name| > 0
    && (forall i :: 0 <= i < |g.name| ==> g.name[i] != ':' && g.name[i] != '\n')
    && (forall k :: 0 <= k < |g.gaps| ==> g.gaps[k] <= ULongMax)
  }

  /** The decimal texts of the gaps, one per gap. */
  function Tokens(gaps: seq<nat>): (r: seq<string>)
    ensures |r| == |gaps|
    ensures forall k :: 0 <= k < |gaps| ==> r[k] == NatToString(gaps[k])
  {
    seq(|gaps|, k requires 0 <= k < |gaps| => NatToString(gaps[k]))
  }

  /** The gap text holds only digits and spaces. */
  lemma {:induction false} GapsTextChars(gaps: seq<nat>)
    ensures forall i :: 0 <= i < |GapsText(gaps)| ==> IsDigit(GapsText(gaps)[i]) || GapsText(gaps)[i] == ' '
  {
    if |gaps| > 0 {
      GapsTextChars(gaps[1..]);
      var n := NatToString(gaps[0]);
      var t := GapsText(gaps);
      forall i | 0 <= i < |t|
        ensures IsDigit(t[i]) || t[i] == ' '
      {
        if i < |n| {
          assert t[i] == n[i];
        } else if i > |n| {
          assert t[i] == GapsText(gaps[1..])[i - |n| - 1];
        }
      }
    }
  }

  /** Splitting the gap text at spaces gives back each gap's decimal text. */
  lemma {:induction false} SplitGapsText(gaps: seq<nat>)
    ensures SplitString(GapsText(gaps), " ") == Tokens(gaps)
  {
    if |gaps| == 0 {
      assert Find("", " ", 0) == NotFound;
    } else {
      var n := NatToString(gaps[0]);
      SplitGapsText(gaps[1..]);
      assert forall i :: 0 <= i < |n| ==> n[i] != ' ';
      SplitAtFirst(n, ' ', GapsText(gaps[1..]));
      assert GapsText(gaps) == n + [' '] + GapsText(gaps[1..]);
      assert [n] + Tokens(gaps[1..]) == Tokens(gaps);
    }
  }

  /** Each token reads back as its gap. */
  lemma ReadTokens(gaps: seq<nat>)
    requires forall k :: 0 <= k < |gaps| ==> gaps[k] <= ULongMax
    ensures ReadGaps(Tokens(gaps)) == Ok(gaps)
  {
    var t := Tokens(gaps);
    forall k | 0 <= k < |t|
      ensures Stoul(t[k]) == Ok(gaps[k])
    {
      StoulOfNatToString(gaps[k]);
    }
    var r := ReadGaps(t);
    assert r.Ok?;
    assert r.value == gaps;
  }

  /** A written line splits at ':' into the name and the gap field. */
  lemma SplitLineAtColon(g: GapsSequence)
    requires Storable(g)
    ensures SplitString(FormatLine(g), ":") == [g.name, " " + GapsText(g.gaps)]
  {
    var rest := " " + GapsText(g.gaps);
    assert FormatLine(g) == g.name + [':'] + rest;
    SplitAtFirst(g.name, ':', rest);
    GapFieldHasNoColon(g.gaps);
    SplitNoChar(rest, ':');
  }

  /** The gap field after the ':' holds only a space, digits and spaces. */
  lemma GapFieldHasNoColon(gaps: seq<nat>)
    ensures forall i :: 0 <= i < |" " + GapsText(gaps)| ==> (" " + GapsText(gaps))[i] != ':'
  {
    var text := GapsText(gaps);
    var rest := " " + text;
    GapsTextChars(gaps);
    forall i | 0 <= i < |rest|
      ensures rest[i] != ':'
    {
      if i > 0 {
        assert rest[i] == text[i - 1];
      }
    }
  }

  /** The gap field splits at spaces into the gaps' decimal texts. */
  lemma SplitGapField(gaps: seq<nat>)
    ensures SplitString(" " + GapsText(gaps), " ") == Tokens(gaps)
  {
    var text := GapsText(gaps);
    assert " " + text == [] + [' '] + text;
    SplitAtFirst([], ' ', text);
    SplitGapsText(gaps);
  }

  /** Reading a written line gives back the same name and gaps. */
  lemma FormatThenParse(g: GapsSequence)
    requires Storable(g)
    ensures ParseLine(FormatLine(g)) == Ok(g)
  {
    SplitLineAtColon(g);
    SplitGapField(g.gaps);
    ReadTokens(g.gaps);
  }

  // ---------------------------------------------------------------- the file

  /**
    The lines `std::getline` yields: each ends before a '\n', which is consumed; text after the
    last '\n' is a final line; nothing after a final '\n' yields no further line.
  */
  function Lines(content: string): (r: seq<string>)
    ensures |r| == 0 <==> |content| == 0
    ensures forall k :: 0 <= k < |r| ==> NoBreak(r[k])
    decreases |content|
  {
    if |content| == 0 then []
    else
      match Find(content, "\n", 0)
      case NotFound =>
        NoBreakBefore(content, |content|);
        assert content[..|content|] == content;
        [content]
      case At(e) =>
        NoBreakBefore(content, e);
        [content[..e]] + Lines(content[e + 1..])
  }

  /** Before the first occurrence of "\n" there is no line break character. */
  lemma NoBreakBefore(content: string, e: nat)
    requires e <= |content|
    requires forall k: nat :: k < e ==> !OccursAt(content, "\n", k)
    ensures NoBreak(content[..e])
  {
    forall i | 0 <= i < e
      ensures content[i] != '\n'
    {
      assert !OccursAt(content, "\n", i);
      assert content[i..i + 1] == [content[i]];
    }
  }

  /** Content as written by saves: empty or ending in a line break. */
  predicate Terminated(content: string) {
    |content| == 0 || Last(content) == '\n'
  }

  /** The reading loop: every line parsed in order; the first failure ends the whole read. */
  function ParseLines(lines: seq<string>): (r: Outcome<seq<GapsSequence>>)
    ensures r.Ok? ==> |r.value| == |lines|
    ensures r.Ok? <==> forall k :: 0 <= k < |lines| ==> ParseLine(lines[k]).Ok?
    ensures r.Ok? ==> forall k :: 0 <= k < |lines| ==> r.value[k] == ParseLine(lines[k]).value
  {
    if |lines| == 0 then Ok([])
    else
      var first :- ParseLine(lines[0]);
      var rest :- ParseLines(lines[1..]);
      Ok([first] + rest)
  }

  function Existing(files: Files, path: string): string {
    if path in files then files[path] else ""
  }

  /** `saveGapsToFile`: append the line and a line break to the range's file, creating it if absent. */
  function Save(files: Files, sortingRange: nat, g: GapsSequence): (r: Files)
    ensures r.Keys == files.Keys + {ResultsPath(sortingRange)}
    ensures forall p :: p in files && p != ResultsPath(sortingRange) ==> r[p] == files[p]
    ensures var before := Existing(files, ResultsPath(sortingRange));
            && before <= r[ResultsPath(sortingRange)]
            && r[ResultsPath(sortingRange)][|before|..] == FormatLine(g) + "\n"
  {
    var path := ResultsPath(sortingRange);
    files[path := Existing(files, path) + FormatLine(g) + "\n"]
  }

  /**
    `getGapsFromFile`: a file that cannot be opened and an empty file both read as no
    sequences; otherwise the read succeeds exactly when every line parses, and gives the
    parsed lines in order.
  */
  function Load(files: Files, sortingRange: nat): (r: Outcome<seq<GapsSequence>>)
    ensures ResultsPath(sortingRange) !in files ==> r == Ok([])
    ensures ResultsPath(sortingRange) in files && files[ResultsPath(sortingRange)] == "" ==> r == Ok([])
    ensures ResultsPath(sortingRange) in files ==>
              (r.Ok? <==> forall l :: l in Lines(files[ResultsPath(sortingRange)]) ==> ParseLine(l).Ok?)
    ensures ResultsPath(sortingRange) in files && r.Ok? ==>
              var lines := Lines(files[ResultsPath(sortingRange)]);
              |r.value| == |lines| && forall k :: 0 <= k < |lines| ==> r.value[k] == ParseLine(lines[k]).value
  {
    var path := ResultsPath(sortingRange);
    if path !in files then Ok([]) else ParseLines(Lines(files[path]))
  }

  /** The first occurrence in a text is still the first once more text follows. */
  lemma {:induction false} FindInPrefix(c: string, x: string, d: string, start: nat, e: nat)
    requires |d| > 0 && start <= e
    requires Find(c, d, start) == At(e)
    ensures Find(c + x, d, start) == At(e)
    decreases e - start
  {
    var s := c + x;
    assert s[start..start + |d|] == c[start..start + |d|];
    if start < e {
      FindInPrefix(c, x, d, start + 1, e);
    }
  }

  /** A terminated text has a line break. */
  lemma TerminatedHasBreak(c: string)
    requires |c| > 0 && Terminated(c)
    ensures Find(c, "\n", 0).At?
  {
    assert OccursAt(c, "\n", |c| - 1) by {
      assert c[|c| - 1..|c|] == [Last(c)];
    }
  }

  /** Appending a line and its break to terminated content adds exactly that line. */
  lemma {:induction false} LinesAppend(c: string, line: string)
    requires Terminated(c)
    requires forall i :: 0 <= i < |line| ==> line[i] != '\n'
    ensures Lines(c + line + "\n") == Lines(c) + [line]
    decreases |c|
  {
    if |c| == 0 {
      assert c + line + "\n" == line + "\n";
      LinesOfOne(line);
    } else {
      TerminatedHasBreak(c);
      var e := Find(c, "\n", 0).index;
      var after := c[e + 1..];
      TerminatedAfter(c, e);
      LinesAppend(after, line);
      LinesAfterFirst(c, line, e);
      assert Lines(c) == [c[..e]] + Lines(after);
      assert [c[..e]] + (Lines(after) + [line]) == ([c[..e]] + Lines(after)) + [line];
    }
  }

  /** What follows a line break of terminated content is terminated too. */
  lemma TerminatedAfter(c: string, e: nat)
    requires Terminated(c) && e < |c|
    ensures Terminated(c[e + 1..])
  {
    if |c[e + 1..]| > 0 {
      assert Last(c[e + 1..]) == Last(c);
    }
  }

  /** A single line and its break make one line. */
  lemma LinesOfOne(line: string)
    requires forall i :: 0 <= i < |line| ==> line[i] != '\n'
    ensures Lines(line + "\n") == [line]
  {
    var x := line + "\n";
    assert x == line + ['\n'] + "";
    FindFirstChar(line, '\n', "", 0);
    assert Find(x, "\n", 0) == At(|line|);
    assert x[..|line|] == line;
    assert x[|line| + 1..] == "";
    assert Lines(x) == [x[..|line|]] + Lines(x[|line| + 1..]);
  }

  /** The first line of the content is still the first once more text follows. */
  lemma LinesAfterFirst(c: string, line: string, e: nat)
    requires Find(c, "\n", 0) == At(e)
    ensures Lines(c + line + "\n") == [c[..e]] + Lines(c[e + 1..] + line + "\n")
  {
    var x := line + "\n";
    assert c + line + "\n" == c + x;
    FindInPrefix(c, x, "\n", 0, e);
    assert (c + x)[..e] == c[..e];
    assert (c + x)[e + 1..] == c[e + 1..] + x;
    assert c[e + 1..] + x == c[e + 1..] + line + "\n";
  }

  lemma {:induction false} ParseLinesAppend(lines: seq<string>, line: string, found: seq<GapsSequence>, g: GapsSequence)
    requires ParseLines(lines) == Ok(found)
    requires ParseLine(line) == Ok(g)
    ensures ParseLines(lines + [line]) == Ok(found + [g])
  {
    var all := lines + [line];
    assert forall k :: 0 <= k < |all| ==> all[k] == if k < |lines| then lines[k] else line;
    var r := ParseLines(all);
    assert r.Ok?;
    assert r.value == found + [g];
  }

  /**
    A save followed by a load reads what was there before followed by the saved sequence, and
    the file stays terminated.
  */
  lemma LoadAfterSave(files: Files, sortingRange: nat, g: GapsSequence, before: seq<GapsSequence>)
    requires Storable(g)
    requires Load(files, sortingRange) == Ok(before)
    requires Terminated(Existing(files, ResultsPath(sortingRange)))
    ensures Load(Save(files, sortingRange, g), sortingRange) == Ok(before + [g])
    ensures Terminated(Existing(Save(files, sortingRange, g), ResultsPath(sortingRange)))
  {
    var path := ResultsPath(sortingRange);
    var c := Existing(files, path);
    assert ParseLines(Lines(c)) == Ok(before) by {
      if path !in files {
        assert Lines(c) == [];
      }
    }
    var line := FormatLine(g);
    LinesAppend(c, line);
    FormatThenParse(g);
    ParseLinesAppend(Lines(c), line, before, g);
  }

  /** Saving each sequence in turn to a results file that did not exist. */
  function SaveAll(files: Files, sortingRange: nat, gs: seq<GapsSequence>): Files
    decreases |gs|
  {
    if |gs| == 0 then files else Save(SaveAll(files, sortingRange, gs[..|gs| - 1]), sortingRange, Last(gs))
  }

  /** Every saved sequence is read back, in the order saved. */
  lemma {:induction false} LoadAfterSaveAll(files: Files, sortingRange: nat, gs: seq<GapsSequence>)
    requires ResultsPath(sortingRange) !in files
    requires forall k :: 0 <= k < |gs| ==> Storable(gs[k])
    ensures Load(SaveAll(files, sortingRange, gs), sortingRange) == Ok(gs)
    ensures Terminated(Existing(SaveAll(files, sortingRange, gs), ResultsPath(sortingRange)))
  {
    if |gs| > 0 {
      var n := |gs| - 1;
      LoadAfterSaveAll(files, sortingRange, gs[..n]);
      LoadAfterSave(SaveAll(files, sortingRange, gs[..n]), sortingRange, Last(gs), gs[..n]);
      FrontLast(gs);
    }
  }
}

=== FILE: seqs.dfy ===
/** Small sequence vocabulary shared by the rest of the model. */
module Seqs {

  /** The last element of a non-empty sequence (C++ `vector::back`). */
  function Last<T>(s: seq<T>): T
    requires |s| > 0
  {
    s[|s| - 1]
  }

  /** A non-empty sequence is its front followed by its last element. */
  lemma FrontLast<T>(s: seq<T>)
    requires |s| > 0
    ensures s[..|s| - 1] + [Last(s)] == s
  {
  }

  /** Ascending order over every pair of positions. */
  ghost predicate Sorted(s: seq<int>) {
    forall i, j :: 0 <= i < j < |s| ==> s[i] <= s[j]
  }

  /** Strictly decreasing over every pair of positions (the gap-list convention). */
  predicate StrictlyDecreasing(s: seq<nat>) {
    forall i, j :: 0 <= i < j < |s| ==> s[i] > s[j]
  }

  /** The integers lo, lo+1, ..., hi-1 in order. */
  function Range(lo: nat, hi: nat): (r: seq<nat>)
    ensures |r| == if lo <= hi then hi - lo else 0
    ensures forall k :: 0 <= k < |r| ==> r[k] == lo + k
    decreases hi - lo
  {
    if lo >= hi then [] else [lo] + Range(lo + 1, hi)
  }

  lemma {:induction false} RangeSplit(lo: nat, mid: nat, hi: nat)
    requires lo <= mid <= hi
    ensures Range(lo, mid) + Range(mid, hi) == Range(lo, hi)
  {
    assert |Range(lo, mid) + Range(mid, hi)| == |Range(lo, hi)|;
  }

  function Sum(s: seq<nat>): nat {
    if |s| == 0 then 0 else Sum(s[..|s| - 1]) + Last(s)
  }

  /** The elements of `s` in reverse order (`std::reverse`). */
  function Reverse<T>(s: seq<T>): (r: seq<T>)
    ensures |r| == |s|
    ensures forall k :: 0 <= k < |s| ==> r[k] == s[|s| - 1 - k]
  {
    if |s| == 0 then [] else [Last(s)] + Reverse(s[..|s| - 1])
  }

  /** `sub` can be obtained from `s` by deleting elements. */
  predicate IsSubsequence<T(==)>(sub: seq<T>, s: seq<T>)
    decreases |s|
  {
    if |sub| == 0 then true
    else if |s| == 0 then false
    else if sub[0] == s[0] then IsSubsequence(sub[1..], s[1..])
    else IsSubsequence(sub, s[1..])
  }

  /** Number of positions of `s` holding `x`. */
  function Count<T(==)>(s: seq<T>, x: T): nat {
    if |s| == 0 then 0 else Count(s[..|s| - 1], x) + (if Last(s) == x then 1 else 0)
  }

  /** All elements are pairwise distinct. */
  predicate Distinct<T(==)>(s: seq<T>) {
    forall i, j :: 0 <= i < j < |s| ==> s[i] != s[j]
  }

  lemma {:induction false} CountDistinct<T>(s: seq<T>, k: nat)
    requires Distinct(s)
    requires k < |s|
    ensures Count(s, s[k]) == 1
  {
    var p := s[..|s| - 1];
    if k == |s| - 1 {
      CountAbsent(p, s[k]);
    } else {
      assert p[k] == s[k];
      CountDistinct(p, k);
    }
  }

  lemma {:induction false} CountAbsent<T>(s: seq<T>, x: T)
    requires forall k :: 0 <= k < |s| ==> s[k] != x
    ensures Count(s, x) == 0
  {
    if |s| > 0 {
      CountAbsent(s[..|s| - 1], x);
    }
  }

  lemma {:induction false} CountBound<T>(s: seq<T>, x: T)
    ensures Count(s, x) <= |s|
  {
    if |s| > 0 {
      CountBound(s[..|s| - 1], x);
    }
  }

  /** `n` zeros: a freshly value-initialised counter vector. */
  function Zeros(n: nat): (r: seq<nat>)
    ensures |r| == n
    ensures forall k :: 0 <= k < n ==> r[k] == 0
  {
    if n == 0 then [] else Zeros(n - 1) + [0]
  }

  lemma {:induction false} SumZeros(n: nat)
    ensures Sum(Zeros(n)) == 0
  {
    if n > 0 {
      SumZeros(n - 1);
      assert (Zeros(n - 1) + [0])[..n - 1] == Zeros(n - 1);
    }
  }

  /** Element-wise addition of two counter vectors. */
  function Plus(a: seq<nat>, b: seq<nat>): (r: seq<nat>)
    requires |a| == |b|
    ensures |r| == |a|
    ensures forall k :: 0 <= k < |a| ==> r[k] == a[k] + b[k]
  {
    if |a| == 0 then [] else Plus(a[..|a| - 1], b[..|b| - 1]) + [Last(a) + Last(b)]
  }

  lemma {:induction false} SumPlus(a: seq<nat>, b: seq<nat>)
    requires |a| == |b|
    ensures Sum(Plus(a, b)) == Sum(a) + Sum(b)
  {
    if |a| > 0 {
      var n := |a| - 1;
      SumPlus(a[..n], b[..n]);
      assert (Plus(a[..n], b[..n]) + [Last(a) + Last(b)])[..n] == Plus(a[..n], b[..n]);
    }
  }

  /** Counting in `s` without its last element is counting in any list with the same elements. */
  lemma CountPrefix<T>(s: seq<T>, p: seq<T>, x: T)
    requires |s| > 0 && |p| == |s| - 1
    requires forall k :: 0 <= k < |p| ==> p[k] == s[k]
    ensures Count(s, x) == Count(p, x) + (if Last(s) == x then 1 else 0)
  {
    assert s[..|s| - 1] == p;
  }
}

=== FILE: shellsort.dfy ===
/**
  The instrumented shell sort of Shellsort.hpp as a functional model: one function per loop
  of the C++ (`Sift` the inner shifting loop, `PassFrom` the loop over `i`, `Run` the loop over
  the gaps), each threading the array and the operation counter through exactly as the code
  does. Lemmas below prove what the sort promises: a permutation, gap-sorted after each pass,
  sorted when the last gap is 1, and the exact operation count.
*/
module ShellSort {
  import opened Seqs

  /** The array after some of the algorithm, with the operations and shifts spent on it. */
  datatype Tally = Tally(arr: seq<int>, ops: nat, shifts: nat)

  /** Every pair `g` apart below position `m` is in order. */
  ghost predicate GSortedBelow(s: seq<int>, g: nat, m: nat) {
    forall k :: g <= k < m && k < |s| ==> s[k - g] <= s[k]
  }

  /** The array is g-sorted: `s[k-g] <= s[k]` for every `k >= g`. */
  ghost predicate GSorted(s: seq<int>, g: nat) {
    GSortedBelow(s, g, |s|)
  }

  /**
    The inner loop: the hole is at `j`, `x` is the value being inserted. While `j >= g` and
    the element `g` below the hole exceeds `x`, it is shifted up; then `x` fills the hole.
    For gap 0 the hole still holds `x`, so the comparison fails at once, as in the C++.
  */
  function Sift(a: seq<int>, g: nat, j: nat, x: int): (r: Tally)
    requires j < |a|
    requires g == 0 ==> a[j] == x
    ensures |r.arr| == |a|
    ensures r.ops == r.shifts
    decreases j
  {
    if j >= g && a[j - g] > x then
      var t := Sift(a[j := a[j - g]], g, j - g, x);
      Tally(t.arr, t.ops + 1, t.shifts + 1)
    else
      Tally(a[j := x], 0, 0)
  }

  /** The loop `for i = ...; i < arr.size(); i++` of one pass, from position `i` on. */
  function PassFrom(a: seq<int>, g: nat, i: nat): (r: Tally)
    ensures |r.arr| == |a|
    ensures r.ops == (if i < |a| then |a| - i else 0) + r.shifts
    decreases |a| - i
  {
    if i >= |a| then Tally(a, 0, 0)
    else
      var t := Sift(a, g, i, a[i]);
      var u := PassFrom(t.arr, g, i + 1);
      Tally(u.arr, 1 + t.ops + u.ops, t.shifts + u.shifts)
  }

  /** One pass with gap `g` starts at `i = g`. */
  function Pass(a: seq<int>, g: nat): Tally {
    PassFrom(a, g, g)
  }

  /**
    `shellSort(arr, gaps)`: one operation per gap, then the pass. The count is one per gap,
    plus one per element visited, plus one per shift.
  */
  function Run(a: seq<int>, gaps: seq<nat>): (r: Tally)
    ensures |r.arr| == |a|
    ensures r.ops == |gaps| + AllVisits(|a|, gaps) + r.shifts
    decreases |gaps|
  {
    if |gaps| == 0 then Tally(a, 0, 0)
    else
      var t := Pass(a, gaps[0]);
      var u := Run(t.arr, gaps[1..]);
      Tally(u.arr, 1 + t.ops + u.ops, t.shifts + u.shifts)
  }

  /** Elements visited by the pass with gap `g`: `max(0, n - g)`. */
  function Visits(n: nat, g: nat): nat {
    if g < n then n - g else 0
  }

  function AllVisits(n: nat, gaps: seq<nat>): nat
    decreases |gaps|
  {
    if |gaps| == 0 then 0 else Visits(n, gaps[0]) + AllVisits(n, gaps[1..])
  }

  // ---------------------------------------------------------------- permutation

  lemma SwapMultiset(s: seq<int>, p: nat, q: nat, u: int, v: int)
    requires p < |s| && q < |s| && p != q
    ensures multiset(s[p := u][q := v]) == multiset(s[p := v][q := u])
  {
  }

  lemma {:induction false} SiftPermutes(a: seq<int>, g: nat, j: nat, x: int)
    requires j < |a|
    requires g == 0 ==> a[j] == x
    ensures |Sift(a, g, j, x).arr| == |a|
    ensures multiset(Sift(a, g, j, x).arr) == multiset(a[j := x])
    decreases j
  {
    if j >= g && a[j - g] > x {
      var b := a[j := a[j - g]];
      SiftPermutes(b, g, j - g, x);
      calc {
        multiset(b[j - g := x]);
        multiset(a[j := a[j - g]][j - g := x]);
        { SwapMultiset(a, j, j - g, a[j - g], x); }
        multiset(a[j := x][j - g := a[j - g]]);
        { assert a[j := x][j - g := a[j - g]] == a[j := x]; }
        multiset(a[j := x]);
      }
    }
  }

  lemma {:induction false} PassFromPermutes(a: seq<int>, g: nat, i: nat)
    ensures |PassFrom(a, g, i).arr| == |a|
    ensures multiset(PassFrom(a, g, i).arr) == multiset(a)
    decreases |a| - i
  {
    if i < |a| {
      SiftPermutes(a, g, i, a[i]);
      assert a[i := a[i]] == a;
      PassFromPermutes(Sift(a, g, i, a[i]).arr, g, i + 1);
    }
  }

  /** The sorted array is a rearrangement of the input. */
  lemma {:induction false} RunPermutes(a: seq<int>, gaps: seq<nat>)
    ensures |Run(a, gaps).arr| == |a|
    ensures multiset(Run(a, gaps).arr) == multiset(a)
    decreases |gaps|
  {
    if |gaps| > 0 {
      PassFromPermutes(a, gaps[0], gaps[0]);
      RunPermutes(Pass(a, gaps[0]).arr, gaps[1..]);
    }
  }

  // ---------------------------------------------------------------- order

  /**
    The inner loop's invariant: the first `i+1` positions are g-sorted except for the pair
    ending at the hole when nothing has moved yet, and the last shifted element exceeds `x`.
    Filling the hole then leaves the first `i+1` positions g-sorted and the rest untouched.
  */
  lemma {:induction false} SiftOrders(a: seq<int>, g: nat, i: nat, j: nat, x: int)
    requires j <= i < |a|
    requires g == 0 ==> a[j] == x
    requires forall k :: g <= k <= i && (k < i || j < i) ==> a[k - g] <= a[k]
    requires j < i ==> j + g <= i && x < a[j + g]
    ensures GSortedBelow(Sift(a, g, j, x).arr, g, i + 1)
    ensures Sift(a, g, j, x).arr[i + 1..] == a[i + 1..]
    decreases j
  {
    if j >= g && a[j - g] > x {
      var b := a[j := a[j - g]];
      forall k | g <= k <= i
        ensures b[k - g] <= b[k]
      {
        if k == j + g {
          assert a[j - g] <= a[j] <= a[j + g] by {
            if j < i { assert a[j - g] <= a[j]; }
          }
        }
      }
      SiftOrders(b, g, i, j - g, x);
    } else {
      var b := a[j := x];
      forall k | g <= k < i + 1
        ensures b[k - g] <= b[k]
      {
      }
    }
  }

  lemma {:induction false} PassFromOrders(a: seq<int>, g: nat, i: nat)
    requires g <= i
    requires GSortedBelow(a, g, i)
    ensures GSorted(PassFrom(a, g, i).arr, g)
    decreases |a| - i
  {
    if i < |a| {
      SiftOrders(a, g, i, i, a[i]);
      var b := Sift(a, g, i, a[i]).arr;
      PassFromOrders(b, g, i + 1);
    }
  }

  /** After the pass for gap `g` the array is g-sorted. */
  lemma PassGSorts(a: seq<int>, g: nat)
    ensures GSorted(Pass(a, g).arr, g)
  {
    PassFromOrders(a, g, g);
  }

  /** After the whole run the array is g-sorted for the last gap `g`. */
  lemma {:induction false} RunLastGapSorts(a: seq<int>, gaps: seq<nat>)
    requires |gaps| > 0
    ensures GSorted(Run(a, gaps).arr, Last(gaps))
    decreases |gaps|
  {
    if |gaps| == 1 {
      PassGSorts(a, gaps[0]);
    } else {
      RunLastGapSorts(Pass(a, gaps[0]).arr, gaps[1..]);
    }
  }

  /** 1-sorted is sorted. */
  lemma {:induction false} OneSortedIsSorted(s: seq<int>)
    requires GSorted(s, 1)
    ensures Sorted(s)
  {
    forall i, j | 0 <= i < j < |s|
      ensures s[i] <= s[j]
    {
      var k := i;
      while k < j
        invariant i <= k <= j
        invariant s[i] <= s[k]
      {
        k := k + 1;
      }
    }
  }

  /** With a final gap of 1 the run sorts ascending, whatever the earlier gaps. */
  lemma RunSorts(a: seq<int>, gaps: seq<nat>)
    requires |gaps| > 0 && Last(gaps) == 1
    ensures Sorted(Run(a, gaps).arr)
    ensures multiset(Run(a, gaps).arr) == multiset(a)
  {
    RunLastGapSorts(a, gaps);
    OneSortedIsSorted(Run(a, gaps).arr);
    RunPermutes(a, gaps);
  }

  // ---------------------------------------------------------------- operation count

  /** A gap at least the array length costs exactly one operation and moves nothing. */
  lemma LargeGapIsNoOp(a: seq<int>, g: nat, rest: seq<nat>)
    requires g >= |a|
    ensures Run(a, [g] + rest).arr == Run(a, rest).arr
    ensures Run(a, [g] + rest).ops == 1 + Run(a, rest).ops
    ensures Run(a, [g] + rest).shifts == Run(a, rest).shifts
  {
    assert ([g] + rest)[1..] == rest;
  }

  lemma {:induction false} SortedPassFromStill(a: seq<int>, g: nat, i: nat)
    requires Sorted(a)
    ensures PassFrom(a, g, i) == Tally(a, if i < |a| then |a| - i else 0, 0)
    decreases |a| - i
  {
    if i < |a| {
      assert a[i := a[i]] == a;
      SortedPassFromStill(a, g, i + 1);
    }
  }

  /** Already sorted input is never shifted: it comes back unchanged at the minimum cost. */
  lemma {:induction false} SortedRunStill(a: seq<int>, gaps: seq<nat>)
    requires Sorted(a)
    ensures Run(a, gaps).arr == a
    ensures Run(a, gaps).shifts == 0
    ensures Run(a, gaps).ops == |gaps| + AllVisits(|a|, gaps)
    decreases |gaps|
  {
    if |gaps| > 0 {
      SortedPassFromStill(a, gaps[0], gaps[0]);
      SortedRunStill(a, gaps[1..]);
    }
  }

  /** Gaps that are all at least the array length leave it alone at one operation each. */
  lemma {:induction false} LargeGapsNoOp(a: seq<int>, gaps: seq<nat>)
    requires forall k :: 0 <= k < |gaps| ==> gaps[k] >= |a|
    ensures Run(a, gaps) == Tally(a, |gaps|, 0)
    decreases |gaps|
  {
    if |gaps| > 0 {
      LargeGapsNoOp(a, gaps[1..]);
    }
  }
}

=== FILE: shellsort_methods.dfy ===
/**
  The two shell sorts as the loops they are in the C++: the instrumented `shellSort` of
  Shellsort.hpp and the uninstrumented twin of ShellsortResearch.cpp. Each is proved to
  compute what the functional model `ShellSort.Run` computes, and so inherits its lemmas.
*/
module ShellSortMethods {
  import opened Seqs
  import opened ShellSort

  /**
    The innermost loop of both sorts: `temp = arr[i]`, shift the larger elements `gap` apart
    up while `j >= gap`, then store `temp` in the hole. `shifts` counts the shifts.
  */
  method SiftLoop(a: seq<int>, gap: nat, i: nat) returns (arr: seq<int>, shifts: nat)
    requires i < |a|
    ensures arr == Sift(a, gap, i, a[i]).arr && shifts == Sift(a, gap, i, a[i]).ops
    ensures multiset(arr) == multiset(a)
  {
    arr := a;
    shifts := 0;
    var temp := arr[i];
    ghost var sift := Sift(a, gap, i, temp);
    var j: nat := i;
    while j >= gap && arr[j - gap] > temp
      invariant j <= i < |arr| == |a|
      invariant gap == 0 ==> arr[j] == temp
      invariant Sift(arr, gap, j, temp).arr == sift.arr
      invariant shifts + Sift(arr, gap, j, temp).ops == sift.ops
      decreases j
    {
      shifts := shifts + 1;
      arr := arr[j := arr[j - gap]];
      j := j - gap;
    }
    arr := arr[j := temp];
    SiftPermutes(a, gap, i, temp);
    assert a[i := temp] == a;
  }

  /**
    One pass of the instrumented sort: `for (i = gap; i < arr.size(); i++)`, one operation per
    element visited and one per shift.
  */
  method PassLoop(a: seq<int>, gap: nat) returns (arr: seq<int>, ops: nat)
    ensures arr == Pass(a, gap).arr && ops == Pass(a, gap).ops
    ensures ops == (if gap < |a| then |a| - gap else 0) + Pass(a, gap).shifts
  {
    arr := a;
    ops := 0;
    var i := gap;
    while i < |arr|
      invariant |arr| == |a|
      invariant PassFrom(arr, gap, i).arr == Pass(a, gap).arr
      invariant ops + PassFrom(arr, gap, i).ops == Pass(a, gap).ops
      decreases |arr| - i
    {
      ops := ops + 1;
      var shifts;
      arr, shifts := SiftLoop(arr, gap, i);
      ops := ops + shifts;
      i := i + 1;
    }
  }

  /**
    `unsigned long shellSort(vector<int>& arr, vector<unsigned long>& gaps)`: the sorted
    array and the operation count (one per gap, per element visited, per shift).
  */
  method InstrumentedShellSort(a: seq<int>, gaps: seq<nat>) returns (arr: seq<int>, ops: nat)
    ensures arr == Run(a, gaps).arr && ops == Run(a, gaps).ops
    ensures multiset(arr) == multiset(a)
    ensures |gaps| > 0 && Last(gaps) == 1 ==> Sorted(arr)
    ensures ops == |gaps| + AllVisits(|a|, gaps) + Run(a, gaps).shifts
    ensures Sorted(a) ==> arr == a && ops == |gaps| + AllVisits(|a|, gaps)
    ensures (forall k :: 0 <= k < |gaps| ==> gaps[k] >= |a|) ==> arr == a && ops == |gaps|
  {
    arr := a;
    ops := 0;
    var p := 0;
    while p < |gaps|
      invariant p <= |gaps|
      invariant Run(arr, gaps[p..]).arr == Run(a, gaps).arr
      invariant ops + Run(arr, gaps[p..]).ops == Run(a, gaps).ops
    {
      assert gaps[p..][1..] == gaps[p + 1..];
      ops := ops + 1;
      var passOps;
      arr, passOps := PassLoop(arr, gaps[p]);
      ops := ops + passOps;
      p := p + 1;
    }
    assert gaps[|gaps|..] == [];
    RunPromises(a, gaps);
  }

  /** What the sort promises of its result: a permutation, sorted by a final gap of 1, still on sorted or short input. */
  lemma RunPromises(a: seq<int>, gaps: seq<nat>)
    ensures multiset(Run(a, gaps).arr) == multiset(a)
    ensures |gaps| > 0 && Last(gaps) == 1 ==> Sorted(Run(a, gaps).arr)
    ensures Sorted(a) ==> Run(a, gaps).arr == a && Run(a, gaps).ops == |gaps| + AllVisits(|a|, gaps)
    ensures (forall k :: 0 <= k < |gaps| ==> gaps[k] >= |a|) ==> Run(a, gaps).arr == a && Run(a, gaps).ops == |gaps|
  {
    RunPermutes(a, gaps);
    if |gaps| > 0 && Last(gaps) == 1 {
      RunSorts(a, gaps);
    }
    if Sorted(a) {
      SortedRunStill(a, gaps);
    }
    if forall k :: 0 <= k < |gaps| ==> gaps[k] >= |a| {
      LargeGapsNoOp(a, gaps);
    }
  }

  /**
    ShellsortResearch.cpp compares the `int` index `i` with `arr.size()`, an unsigned size, so
    a negative start index converts to a huge unsigned value and the comparison fails.
  */
  predicate IndexBelowSize(i: int, size: nat) {
    0 <= i < size
  }

  /** The gaps whose passes do anything: the negative ones are skipped by the comparison above. */
  function NonNegative(gaps: seq<int>): (r: seq<nat>)
    ensures |r| <= |gaps|
    ensures forall x :: x in r ==> x in gaps
    ensures (forall k :: 0 <= k < |gaps| ==> gaps[k] >= 0) ==> r == gaps
    ensures IsSubsequence<int>(r, gaps)
    ensures forall x: int :: multiset(r)[x] == if x >= 0 then multiset(gaps)[x] else 0
  {
    if |gaps| == 0 then []
    else
      var head: seq<nat> := if gaps[0] >= 0 then [gaps[0] as nat] else [];
      var rest := NonNegative(gaps[1..]);
      assert gaps == [gaps[0]] + gaps[1..];
      assert (head + rest)[|head|..] == rest;
      head + rest
  }

  /**
    The innermost loop of ShellsortResearch.cpp, on `int` indices. It runs only for a gap the
    pass loop admitted, so `0 <= gap <= i`.
  */
  method ResearchSift(a: seq<int>, gap: int, i: int) returns (arr: seq<int>)
    requires 0 <= gap <= i < |a|
    ensures arr == Sift(a, gap, i, a[i]).arr
  {
    arr := a;
    var temp := arr[i];
    ghost var sift := Sift(a, gap, i, temp);
    var j: int := i;
    while j >= gap && arr[j - gap] > temp
      invariant 0 <= j <= i < |arr| == |a|
      invariant gap == 0 ==> arr[j] == temp
      invariant Sift(arr, gap, j, temp).arr == sift.arr
      decreases j
    {
      arr := arr[j := arr[j - gap]];
      j := j - gap;
    }
    arr := arr[j := temp];
  }

  /**
    One pass of ShellsortResearch.cpp: `for (int i = gap; i < arr.size(); i++)`. A negative
    gap fails the unsigned comparison at once and the pass does nothing.
  */
  method ResearchPass(a: seq<int>, gap: int) returns (arr: seq<int>)
    ensures gap >= 0 ==> arr == Pass(a, gap).arr
    ensures gap < 0 ==> arr == a
  {
    arr := a;
    var i := gap;
    while IndexBelowSize(i, |arr|)
      invariant |arr| == |a|
      invariant gap >= 0 ==> gap <= i && PassFrom(arr, gap, i).arr == Pass(a, gap).arr
      invariant gap < 0 ==> i == gap && arr == a
      decreases |arr| - i
    {
      arr := ResearchSift(arr, gap, i);
      i := i + 1;
    }
  }

  /**
    `void shellSort(vector<int>& arr, vector<int>& gaps)`: the same passes without counting.
    On non-negative gaps it leaves exactly the array the instrumented sort leaves.
  */
  method ResearchShellSort(a: seq<int>, gaps: seq<int>) returns (arr: seq<int>)
    ensures arr == Run(a, NonNegative(gaps)).arr
    ensures (forall k :: 0 <= k < |gaps| ==> gaps[k] >= 0) ==> arr == Run(a, gaps).arr
    ensures multiset(arr) == multiset(a)
    ensures |gaps| > 0 && Last(gaps) == 1 ==> Sorted(arr)
    ensures (forall k :: 0 <= k < |gaps| ==> gaps[k] < 0 || gaps[k] >= |a|) ==> arr == a
  {
    arr := a;
    var p := 0;
    while p < |gaps|
      invariant p <= |gaps|
      invariant Run(arr, NonNegative(gaps[p..])).arr == Run(a, NonNegative(gaps)).arr
    {
      var gap := gaps[p];
      assert gaps[p..][1..] == gaps[p + 1..];
      arr := ResearchPass(arr, gap);
      if gap >= 0 {
        assert NonNegative(gaps[p..]) == [gap as nat] + NonNegative(gaps[p + 1..]);
        assert ([gap as nat] + NonNegative(gaps[p + 1..]))[1..] == NonNegative(gaps[p + 1..]);
      } else {
        assert NonNegative(gaps[p..]) == NonNegative(gaps[p + 1..]);
      }
      p := p + 1;
    }
    assert gaps[|gaps|..] == [];
    ResearchPromises(a, gaps);
  }

  /** What the research sort promises of its result, from the kept gaps. */
  lemma ResearchPromises(a: seq<int>, gaps: seq<int>)
    ensures multiset(Run(a, NonNegative(gaps)).arr) == multiset(a)
    ensures |gaps| > 0 && Last(gaps) == 1 ==> Sorted(Run(a, NonNegative(gaps)).arr)
    ensures (forall k :: 0 <= k < |gaps| ==> gaps[k] < 0 || gaps[k] >= |a|) ==> Run(a, NonNegative(gaps)).arr == a
  {
    RunPermutes(a, NonNegative(gaps));
    if |gaps| > 0 && Last(gaps) == 1 {
      NonNegativeLast(gaps);
      RunSorts(a, NonNegative(gaps));
    }
    if forall k :: 0 <= k < |gaps| ==> gaps[k] < 0 || gaps[k] >= |a| {
      var kept := NonNegative(gaps);
      forall k | 0 <= k < |kept|
        ensures kept[k] >= |a|
      {
        assert kept[k] in gaps;
      }
      LargeGapsNoOp(a, kept);
    }
  }

  lemma {:induction false} NonNegativeLast(gaps: seq<int>)
    requires |gaps| > 0 && Last(gaps) >= 0
    ensures |NonNegative(gaps)| > 0 && Last(NonNegative(gaps)) == Last(gaps)
    decreases |gaps|
  {
    if |gaps| > 1 {
      NonNegativeLast(gaps[1..]);
    }
  }
}

=== FILE: split.dfy ===
/**
  `splitString(toSplit, spliter)` of FilesManagement.hpp: cut the text at every occurrence of
  the delimiter, left to right, and keep the non-empty pieces. The loop's `start` index is
  modelled by the remaining text `toSplit[start..]`.
*/
module Split {

  /** The delimiter `d` occurs in `s` starting at position `k`. */
  predicate OccursAt(s: string, d: string, k: nat) {
    k + |d| <= |s| && s[k..k + |d|] == d
  }

  /** The delimiter occurs nowhere in `s`. */
  predicate Free(s: string, d: string) {
    forall k: nat :: k <= |s| ==> !OccursAt(s, d, k)
  }

  /** The result of `std::string::find`: a position, or `npos`. */
  datatype Position = NotFound | At(index: nat)

  /** `s.find(d, start)`: the first occurrence of `d` at or after `start`. */
  function Find(s: string, d: string, start: nat): (r: Position)
    requires |d| > 0
    ensures r.At? ==> start <= r.index && OccursAt(s, d, r.index)
    ensures r.At? ==> forall k: nat :: start <= k < r.index ==> !OccursAt(s, d, k)
    ensures r.NotFound? ==> forall k: nat :: start <= k ==> !OccursAt(s, d, k)
    decreases |s| - start
  {
    if start + |d| > |s| then NotFound
    else if OccursAt(s, d, start) then At(start)
    else Find(s, d, start + 1)
  }

  /** `if (sub.length() > 0) tokens.push_back(sub)`. */
  function NonEmpty(sub: string): (r: seq<string>) {
    if |sub| > 0 then [sub] else []
  }

  /**
    `splitString(rest, d)`. The delimiter must be non-empty: with an empty one `find` returns
    `start` and the loop never advances.
  */
  function SplitString(rest: string, d: string): (r: seq<string>)
    requires |d| > 0
    ensures |r| <= |rest|
    decreases |rest|
  {
    match Find(rest, d, 0)
    case NotFound => NonEmpty(rest)
    case At(end) => NonEmpty(rest[..end]) + SplitString(rest[end + |d|..], d)
  }

  /** The tokens joined back together. */
  function Concat(tokens: seq<string>): string {
    if |tokens| == 0 then "" else tokens[0] + Concat(tokens[1..])
  }

  /**
    An independent scan: walking the text left to right, drop `d` wherever it starts and keep
    every other character.
  */
  function Strip(s: string, d: string): string
    requires |d| > 0
    decreases |s|
  {
    if |s| < |d| then s
    else if s[..|d|] == d then Strip(s[|d|..], d)
    else [s[0]] + Strip(s[1..], d)
  }

  // ---------------------------------------------------------------- the tokens

  /** Every token is non-empty and free of the delimiter. */
  lemma {:induction false} TokensNonEmptyAndFree(rest: string, d: string)
    requires |d| > 0
    ensures forall i :: 0 <= i < |SplitString(rest, d)| ==>
              |SplitString(rest, d)[i]| > 0 && Free(SplitString(rest, d)[i], d)
    decreases |rest|
  {
    var r := SplitString(rest, d);
    match Find(rest, d, 0)
    case NotFound =>
      FreeWhenNotFound(rest, d);
    case At(end) =>
      TokensNonEmptyAndFree(rest[end + |d|..], d);
      FreeBeforeFirst(rest, d, end);
      var head := NonEmpty(rest[..end]);
      var tail := SplitString(rest[end + |d|..], d);
      assert r == head + tail;
      forall i | 0 <= i < |r|
        ensures |r[i]| > 0 && Free(r[i], d)
      {
        if i >= |head| {
          assert r[i] == tail[i - |head|];
        }
      }
  }

  lemma FreeWhenNotFound(s: string, d: string)
    requires |d| > 0 && Find(s, d, 0).NotFound?
    ensures Free(s, d)
  {
  }

  /** The text before the first occurrence holds no occurrence. */
  lemma FreeBeforeFirst(s: string, d: string, end: nat)
    requires |d| > 0 && Find(s, d, 0) == At(end)
    ensures Free(s[..end], d)
  {
    var t := s[..end];
    forall k: nat | k <= |t|
      ensures !OccursAt(t, d, k)
    {
      if k + |d| <= |t| {
        assert s[k..k + |d|] == t[k..k + |d|];
        assert !OccursAt(s, d, k);
      }
    }
  }

  /** Text without the delimiter is returned whole, or not at all when empty. */
  lemma SplitFree(s: string, d: string)
    requires |d| > 0 && Free(s, d)
    ensures SplitString(s, d) == if |s| > 0 then [s] else []
  {
  }

  // ---------------------------------------------------------------- what is kept

  lemma {:induction false} ConcatAppend(a: seq<string>, b: seq<string>)
    ensures Concat(a + b) == Concat(a) + Concat(b)
  {
    if |a| > 0 {
      assert (a + b)[0] == a[0];
      assert (a + b)[1..] == a[1..] + b;
      ConcatAppend(a[1..], b);
      assert Concat(a + b) == a[0] + (Concat(a[1..]) + Concat(b));
      assert a[0] + (Concat(a[1..]) + Concat(b)) == (a[0] + Concat(a[1..])) + Concat(b);
    } else {
      assert a + b == b;
    }
  }

  /** A text free of the delimiter survives the scan unchanged. */
  lemma {:induction false} StripFree(s: string, d: string)
    requires |d| > 0 && Free(s, d)
    ensures Strip(s, d) == s
    decreases |s|
  {
    if |s| >= |d| {
      assert !OccursAt(s, d, 0);
      assert s[0..|d|] == s[..|d|];
      FreeSuffix(s, d, 1);
      StripFree(s[1..], d);
      assert s == [s[0]] + s[1..];
    }
  }

  lemma FreeSuffix(s: string, d: string, n: nat)
    requires Free(s, d) && n <= |s|
    ensures Free(s[n..], d)
  {
    forall k: nat | k <= |s[n..]|
      ensures !OccursAt(s[n..], d, k)
    {
      if k + |d| <= |s[n..]| {
        assert s[n..][k..k + |d|] == s[n + k..n + k + |d|];
        assert !OccursAt(s, d, n + k);
      }
    }
  }

  /**
    Up to the first occurrence the scan copies the text, then drops the occurrence and goes on
    after it.
  */
  lemma {:induction false} StripToFirst(s: string, d: string, start: nat, end: nat)
    requires |d| > 0 && start <= end
    requires OccursAt(s, d, end)
    requires forall k: nat :: start <= k < end ==> !OccursAt(s, d, k)
    ensures Strip(s[start..], d) == s[start..end] + Strip(s[end + |d|..], d)
    decreases end - start
  {
    var t := s[start..];
    assert t[..|d|] == s[start..start + |d|];
    if start == end {
      assert t[|d|..] == s[end + |d|..];
    } else {
      assert !OccursAt(s, d, start);
      StripToFirst(s, d, start + 1, end);
      assert t[1..] == s[start + 1..];
      assert s[start..end] == [s[start]] + s[start + 1..end];
    }
  }

  /**
    The tokens joined are the text with its delimiter occurrences removed, left to right and
    without overlap: no character other than the delimiters' is lost, and none is added.
  */
  lemma {:induction false} SplitKeepsAllButDelimiters(rest: string, d: string)
    requires |d| > 0
    ensures Concat(SplitString(rest, d)) == Strip(rest, d)
    decreases |rest|
  {
    match Find(rest, d, 0)
    case NotFound =>
      FreeWhenNotFound(rest, d);
      StripFree(rest, d);
    case At(end) =>
      SplitKeepsAllButDelimiters(rest[end + |d|..], d);
      KeepsAtFirst(rest, d, end);
  }

  /** The step at the first occurrence: the piece before it is kept, the occurrence dropped. */
  lemma KeepsAtFirst(rest: string, d: string, end: nat)
    requires |d| > 0 && Find(rest, d, 0) == At(end)
    requires Concat(SplitString(rest[end + |d|..], d)) == Strip(rest[end + |d|..], d)
    ensures Concat(SplitString(rest, d)) == Strip(rest, d)
  {
    var after := rest[end + |d|..];
    ConcatAppend(NonEmpty(rest[..end]), SplitString(after, d));
    StripToFirst(rest, d, 0, end);
    assert rest[0..] == rest && rest[0..end] == rest[..end];
  }

  // ---------------------------------------------------------------- a delimiter followed by a text

  /**
    When `u` holds no `c`, the first `c` in `u + [c] + v` is the one right after `u`, so the
    split yields `u` (if non-empty) and then the split of `v`.
  */
  lemma SplitAtFirst(u: string, c: char, v: string)
    requires forall i :: 0 <= i < |u| ==> u[i] != c
    ensures SplitString(u + [c] + v, [c]) == NonEmpty(u) + SplitString(v, [c])
  {
    var s := u + [c] + v;
    FindFirstChar(u, c, v, 0);
    assert s[..|u|] == u;
    assert s[|u| + 1..] == v;
  }

  lemma {:induction false} FindFirstChar(u: string, c: char, v: string, start: nat)
    requires start <= |u|
    requires forall i :: 0 <= i < |u| ==> u[i] != c
    ensures Find(u + [c] + v, [c], start) == At(|u|)
    decreases |u| - start
  {
    var s := u + [c] + v;
    if start < |u| {
      assert s[start..start + 1] == [u[start]];
      FindFirstChar(u, c, v, start + 1);
    } else {
      assert s[start..start + 1] == [c];
    }
  }

  /** A text without `c` is one token for the delimiter `c`. */
  lemma SplitNoChar(s: string, c: char)
    requires forall i :: 0 <= i < |s| ==> s[i] != c
    ensures SplitString(s, [c]) == NonEmpty(s)
  {
    FreeOfChar(s, c);
    SplitFree(s, [c]);
  }

  /** A one-character delimiter occurs exactly where that character does. */
  lemma FreeOfChar(s: string, c: char)
    requires forall i :: 0 <= i < |s| ==> s[i] != c
    ensures Free(s, [c])
  {
    forall k: nat | k <= |s|
      ensures !OccursAt(s, [c], k)
    {
      if k + 1 <= |s| {
        assert s[k..k + 1] == [s[k]];
      }
    }
  }
}
